=== FILE: README.md ===
# Attendance tracker: a Dafny model of its server handlers, client cache and screen logic

The system is an attendance tracker for instructors. It has two parts:

- **An Express/MySQL back end.** Users register and log in. An instructor owns classes, enrols students into them, and records per-date attendance marks. The server reports per-class figures: the number of students and the attendance rate.
- **A React Native client.** It keeps a cache of the signed-in user's data, and its screens take attendance, show reports, show a class's overview and the dashboard totals, and change the password or display name.

This project models three layers as pure functions over immutable data.

1. **Server** (`Server`, with `Ledger` and `Stats`). Each route handler is a transition from a store of four relations to a pair (response, new store).
   - The relations are users, classes, students and attendance marks.
   - The store is held as sequences in insertion order, with auto-increment counters.
   - Each SQL statement becomes the matching filter or append.
   - The `/data` query's `LEFT JOIN … GROUP BY` is modelled row by row. It is proved to give the plain figures: the number of distinct students, and 100 × present / total over the class's own marks.
   - `ServerProperties` proves that every handler keeps the store's integrity invariant `Ledger.Valid`, together with the per-handler properties (upsert, framing, login, the absence of cascades).
2. **Client cache** (`AppContext`). This is the state machine over `{user, classes, students by class, attendance by class, currentAttendance}`.
   - Server replies arrive as parameters: a status and body, or `Unreachable` for a network error.
   - Each action returns the new cache, what the promise settles with, and any `fetchData` it starts without awaiting.
3. **Screens** (`TakeAttendanceScreen`, `ClassReportsScreen`, `ClassDetailScreen`, `DashboardScreen`, `ChangePasswordScreen`, `EditProfileModal`). Their handlers are functions from inputs to the ordered list of effects they perform: alerts, state setters, calls and navigation.

Shared vocabulary:

- `JsValues`: `Option`, JavaScript truthiness, and `Dict`, a JavaScript object as a list of entries with distinct keys in insertion order.
- `Text`: ECMAScript `trim`, ASCII `toLowerCase`, and string length in UTF-16 code units.

Token checking (`jwt.verify`) is a parameter `Auth`:

- no token gives 401;
- a token that fails verification gives 403;
- otherwise the caller's user id is known.

## Model

| member | source | states |
|---|---|---|
| JsValues.Put | src/context/AppContext.js:123-124 | Setting a key of an object keeps every other key's value and makes its value the new one. An existing key keeps its place, so every entry keeps its position; a missing key is appended after all existing entries |
| Text.Trim | backend/server.js:191 | `trim` gives a contiguous part of the input with only whitespace before and after it, which itself neither starts nor ends with whitespace, and which is empty exactly when the input is all whitespace |
| Text.TrimIdempotent | backend/server.js:196 | Trimming a trimmed string changes nothing |
| Text.ToLowerIsLower | backend/server.js:60 | Lower-casing yields a string with no upper-case letter |
| Server.Refuse | backend/server.js:26-37 | A request with no token is answered 401, and one whose token fails verification 403, with no change to the store |
| Server.Register | backend/server.js:44-74 | 400 iff a field is missing; 409 iff the lower-cased email is already taken; otherwise exactly one user is appended, with the next id and the email lower-cased. The reply carries the new user's claims, and nothing is written on refusal |
| Server.Login | backend/server.js:77-103 | No write. 400 iff email or password is missing; 200 iff the user found by lower-cased email has exactly that password, and then the reply carries that user's claims and display name |
| Server.ChangePassword | backend/server.js:106-136 | 400 on a missing field (before the user lookup) and 404 iff the caller is not a user. For a caller who is a user, 200 iff the stored password equals the current one, and 403 otherwise. On 200 only the caller's password changes |
| Server.SetPassword | backend/server.js:129 | The update keeps the rows in order with their ids, names, e-mails and display names. Rows with that id get the new password, and every other row is untouched |
| Server.SetPasswordLookups | backend/server.js:115-129 | After the update, looking the caller up by id finds the same row with the new password, and looking up any other id finds what it found before |
| Server.LookupAfterRewrite | backend/server.js:115-129 | A lookup by id over rows rewritten one at a time finds the rewritten form of the row it found before |
| Ledger.FirstUser | backend/server.js:85 | A lookup finds the first user meeting the condition, and finds none iff no user meets it |
| Ledger.UserByEmail | backend/server.js:52 | The user found by e-mail is a stored user with that e-mail, and none is found iff no stored user has it |
| Ledger.UserById | backend/server.js:115 | The user found by id is a stored user with that id, and none is found iff no stored user has it |
| Server.GetData | backend/server.js:139-183 | No write. Only the caller's classes are listed, in table order, each with its distinct-student count and its unrounded attendance rate |
| Server.StudentsByClass | backend/server.js:158-175 | The students object has exactly the caller's class ids as keys, and each holds exactly the students of that class |
| Server.MarksByClass | backend/server.js:158-175 | The attendance object has exactly the caller's class ids as keys, and each holds exactly the marks of that class |
| Server.CreateClass | backend/server.js:187-214 | 400 iff the name is missing or blank after trim. Otherwise one class is appended with the trimmed name and the next id, and the reply reports it with 0 students and rate 0 |
| Server.DeleteClass | backend/server.js:216-227 | For a signed-in caller: 500 with no write iff the class id is not a number, otherwise 200 whether or not a row matched. On 200 exactly the class with that id and the caller as owner disappears; every other class stays and nothing else changes |
| Server.EnrollStudent | backend/server.js:230-255 | As written: 400 iff a field is missing (checked before trimming and before ownership); then 500 iff the class id is not a number; then 404 iff the caller does not own the class; otherwise one student is appended with the trimmed fields, and nothing is written on refusal |
| Server.EnrollStudentChecked | backend/server.js:235-248 | With the blank check after trimming: 400 iff a field is missing or blank, and a stored student's name and registration number are never empty |
| Server.DropStudent | backend/server.js:257-275 | 500 iff the class id is not a number, or the caller owns the class and the student id is not a number; 404 iff the class id is a number the caller does not own. Neither writes. On 200 exactly the student row with that id in that class disappears, and the attendance marks stay |
| Server.NewMarks | backend/server.js:297-301 | One inserted mark per entry of `records`, in entry order, carrying the class, the date and that entry's student and present value |
| Server.RecordAttendance | backend/server.js:278-309 | 400 iff the date is missing or `records` is missing or empty (before ownership); then 500 iff the class id is not a number; then 404 iff the caller does not own the class; on 200, the marks of this class, date and submitted students are replaced by the new ones, and nothing else changes |
| Stats.StudentIds | backend/server.js:149 | The distinct student ids of some rows: every row's id is among them, each of them is some row's id, and there are no more of them than rows |
| Stats.PresentCount | backend/server.js:150 | The number of "present" marks: never above the total, equal to it iff every mark is present, and 0 iff none is |
| Stats.Rate | backend/server.js:150 | The attendance rate lies in [0, 100], is 0 with no marks, and is 100 iff there are marks and all are present |
| Stats.Summarise | backend/server.js:146-156 | One row of the grouped join: the class's own fields, its number of distinct enrolled students, and the rate of its own marks, whatever the join multiplies |
| Stats.CrossCounts | backend/server.js:152-153 | Joining k student rows with the marks repeats each mark k times, scaling both the non-null count and the present sum by k |
| Stats.JoinPreservesStudents | backend/server.js:149-153 | `COUNT(DISTINCT s.id)` over the joined rows is the number of distinct enrolled students |
| Stats.JoinPreservesRate | backend/server.js:150-153 | The average over the joined rows equals the rate of the class's own marks, with or without students and marks |
| ServerProperties.RegisterPreservesValid | backend/server.js:52-61 | Registration keeps the integrity invariant, because the duplicate-email check runs first and the id is fresh |
| ServerProperties.ChangePasswordPreservesValid | backend/server.js:129 | Changing a password keeps the integrity invariant |
| ServerProperties.CreateClassPreservesValid | backend/server.js:196-197 | Creating a class keeps the integrity invariant |
| ServerProperties.DeleteClassPreservesValid | backend/server.js:221 | Deleting a class keeps the integrity invariant |
| ServerProperties.EnrollStudentPreservesValid | backend/server.js:245-248 | Enrolling keeps the integrity invariant |
| ServerProperties.DropStudentPreservesValid | backend/server.js:268 | Dropping a student keeps the integrity invariant |
| ServerProperties.NewMarksDistinct | backend/server.js:297-301 | The inserted marks are pairwise distinct in (class, student, date), given that distinct keys of `records` spell distinct ids (see "## Left out") |
| ServerProperties.RecordAttendancePreservesValid | backend/server.js:283-301 | Recording attendance keeps at most one mark per class, student and date |
| ServerProperties.NewMarksOfStudent | backend/server.js:297-301 | For each submitted student exactly one inserted mark has that student, carrying the submitted present value |
| ServerProperties.RecordAttendanceUpserts | backend/server.js:283-301 | After a 200, each submitted student has exactly one mark for that class and date, with the submitted value |
| ServerProperties.RecordAttendanceFrames | backend/server.js:293-301 | Marks of other classes, other dates or students not submitted are kept, in order |
| ServerProperties.LoginSucceedsIff | backend/server.js:85-90 | On a valid store, with both fields given, login succeeds iff some user has the lower-cased email and exactly the supplied password |
| ServerProperties.UniqueEmailFound | backend/server.js:85 | With unique emails, the lookup by email finds the one user who has it |
| ServerProperties.CreatedClassFiguresAgree | backend/server.js:199-204 | The figures the create reply announces (0 students, rate 0) are what `/data` computes for the new class |
| ServerProperties.DroppedStudentMarksRemain | backend/server.js:268 | Dropping a student deletes none of that student's marks |
| ServerProperties.EnrollAcceptsBlankName | backend/server.js:235-248 | As written, for an owned class, a name made only of whitespace (such as two spaces) is accepted with 201, and the student is stored with the empty string as its name |
| ServerProperties.CheckedEnrollRefusesBlankName | backend/server.js:235-248 | With the check after trimming, the same request is refused with 400 and the store is unchanged |
| AppContext.SetUser | src/context/AppContext.js:66-75 | Whenever the user goes from signed in to none, classes, students and attendance become empty; any other change of user leaves them |
| AppContext.Logout | src/context/AppContext.js:107-109 | Logging out drops the user and clears the cached data, keeping the cache coherent |
| AppContext.ApiFetch | src/context/AppContext.js:18-46 | Data comes back iff the status is 2xx with a body. A 401 logs out; every other failure, including an unreachable server, changes nothing |
| AppContext.FetchData | src/context/AppContext.js:50-64 | Without a token nothing happens. A successful fetch sets classes, students and attendance to the reply's values (default `[]`, `{}`, `{}`); a failed one leaves them as `apiFetch` left them |
| AppContext.FetchDataReplacesWholesale | src/context/AppContext.js:59-63 | After a successful fetch the cached data no longer depends on what was cached before |
| AppContext.SignIn | src/context/AppContext.js:80-105 | Login and register resolve true iff the reply succeeds with a token, and then the user is set with that token and a fetch with it starts; otherwise they resolve false with only `apiFetch`'s effect |
| AppContext.AddClass | src/context/AppContext.js:114-128 | On success exactly the returned class is appended, its students and attendance slices become empty, and every other class's slices are unchanged; on failure only `apiFetch`'s effect |
| AppContext.AddStudent | src/context/AppContext.js:130-147 | On success the returned student is appended to that class's slice only, and a fetch starts; with no user the promise rejects |
| AppContext.DeleteStudent | src/context/AppContext.js:149-165 | On success the students with that id leave that class's slice only, a fetch starts, and the promise resolves true (it rejects with no user). For a class with no slice, the action settles the same way, but the queued update throws at the next render and the cache is not changed |
| AppContext.RecordsOf | src/context/AppContext.js:169-173 | One record per entry of `currentAttendance`, each with the given date and one of its keys |
| AppContext.RecordsOnePerEntry | src/context/AppContext.js:169-173 | Each entry's student has exactly one record, carrying that entry's present value |
| AppContext.TakeAttendance | src/context/AppContext.js:167-188 | The request posts those records. On success attendance and classes become the reply's (default `{}`, `[]`) and `currentAttendance` becomes empty; on failure only `apiFetch`'s effect |
| AppContext.UnauthorizedLogsOut | src/context/AppContext.js:28-32 | Every action that meets a 401 leaves the cache logged out |
| AppContext.FetchDataKeepsCoherent | src/context/AppContext.js:66-75 | Fetching keeps "no user implies no data" (given that a request sent with no user does not succeed: it is refused with 401 or never arrives) |
| AppContext.SignInKeepsCoherent | src/context/AppContext.js:80-105 | Signing in keeps "no user implies no data" |
| AppContext.AddClassKeepsCoherent | src/context/AppContext.js:120-125 | Adding a class keeps "no user implies no data" (given that a request sent with no user does not succeed: it is refused with 401 or never arrives) |
| AppContext.AddStudentKeepsCoherent | src/context/AppContext.js:136-143 | Adding a student keeps "no user implies no data" (given that a request sent with no user does not succeed: it is refused with 401 or never arrives) |
| AppContext.DeleteStudentKeepsCoherent | src/context/AppContext.js:154-161 | Deleting a student keeps "no user implies no data" (given that a request sent with no user does not succeed: it is refused with 401 or never arrives) |
| AppContext.TakeAttendanceKeepsCoherent | src/context/AppContext.js:180-187 | Taking attendance keeps "no user implies no data" (given that a request sent with no user does not succeed: it is refused with 401 or never arrives) |
| AppContext.AddThenDeleteStudent | src/context/AppContext.js:136-161 | Adding a student and then deleting it gives the class's slice without that student |
| TakeAttendanceScreen.InitialAttendance | src/screens/TakeAttendanceScreen.js:14-21 | On load the map's keys are exactly the class's student ids, all set to present |
| TakeAttendanceScreen.Toggle | src/screens/TakeAttendanceScreen.js:50-55 | Toggling flips what is shown for that student (a missing entry, shown absent, becomes present) and leaves every other entry unchanged |
| TakeAttendanceScreen.ToggleTwice | src/screens/TakeAttendanceScreen.js:50-55 | Toggling an entry twice restores the map |
| TakeAttendanceScreen.ToggleOnFreshSheet | src/screens/TakeAttendanceScreen.js:14-21 | On a fresh sheet, toggling one student shows that student absent and another still present |
| TakeAttendanceScreen.Submit | src/screens/TakeAttendanceScreen.js:23-48 | An empty class alerts and never calls `takeAttendance`. Otherwise the call is made with `loading` on, `loading` is off again however the call settles, and the screen goes back iff it resolves true |
| ClassReportsScreen.StudentNames | src/screens/ClassReportsScreen.js:43-46 | The student map has exactly the roster's ids as keys |
| ClassReportsScreen.StudentNamesLastWins | src/screens/ClassReportsScreen.js:43-46 | Each id maps to the name of the last student with that id |
| ClassReportsScreen.Label | src/screens/ClassReportsScreen.js:52 | An unknown id (or an empty name) is labelled "Unknown Student"; otherwise the label is the student's name |
| ClassReportsScreen.Items | src/screens/ClassReportsScreen.js:50-53 | One line per record, in order, with the record's label and present value |
| ClassReportsScreen.GroupByDate | src/screens/ClassReportsScreen.js:48-56 | The groups are keyed by exactly the dates that occur among the records |
| ClassReportsScreen.GroupContents | src/screens/ClassReportsScreen.js:48-56 | Each date's group holds exactly the lines of that date's records, in their original order, with their present values unchanged |
| ClassReportsScreen.GroupCount | src/screens/ClassReportsScreen.js:48-56 | There are as many groups as distinct dates |
| ClassReportsScreen.Report | src/screens/ClassReportsScreen.js:36-64 | Empty when the class has no students or no records; otherwise one section per distinct date |
| ClassReportsScreen.ToggleSection | src/screens/ClassReportsScreen.js:67-69 | Pressing the expanded section collapses it; pressing any other makes it the only expanded one |
| ClassReportsScreen.RenderedIsExpanded | src/screens/ClassReportsScreen.js:86-87 | Only the expanded section's lines are drawn, and none when no section is expanded |
| ClassDetailScreen.FindClass | src/screens/ClassDetailScreen.js:12 | The first class with the numeric id, or none iff no class has it or the id is not a number |
| ClassDetailScreen.Render | src/screens/ClassDetailScreen.js:12-24 | A spinner iff the class is not found; otherwise its count, its rate (a missing rate reads 0), the rate's colour, and buttons enabled iff not loading |
| ClassDetailScreen.RateColour | src/screens/ClassDetailScreen.js:27-31 | Green iff the rate is at least 90, orange iff 70 ≤ rate < 90, red iff below 70 |
| ClassDetailScreen.RateColourMonotone | src/screens/ClassDetailScreen.js:27-31 | A higher rate never gets a worse colour |
| ClassDetailScreen.NavigateToAttendance | src/screens/ClassDetailScreen.js:37-44 | Taking attendance is blocked exactly when the class reports 0 students; otherwise it navigates with the class id |
| ClassDetailScreen.NewClassBlocksAttendance | src/screens/ClassDetailScreen.js:37-44 | A class just added with 0 students is found by its id, and attendance cannot be taken for it |
| DashboardScreen.TotalStudents | src/screens/DashboardScreen.js:16 | A null class list gives 0 students |
| DashboardScreen.SumCountsAppend | src/screens/DashboardScreen.js:16 | The student total splits over concatenated class lists |
| DashboardScreen.SumCountsNonNegative | src/screens/DashboardScreen.js:16 | With no negative count, the total is not negative |
| DashboardScreen.TotalClasses | src/screens/DashboardScreen.js:58 | The class total is the list's length, and 0 for a null list |
| DashboardScreen.AddClassMovesTotals | src/screens/DashboardScreen.js:16 | A successful `addClass` raises the class total by one and the student total by the new class's count |
| DashboardScreen.Render | src/screens/DashboardScreen.js:36 | The full-screen loader shows iff loading with no class; otherwise the two totals |
| DashboardScreen.HandleAddClass | src/screens/DashboardScreen.js:18-26 | A blank name alerts and calls nothing. Otherwise `addClass` gets the non-empty trimmed name, then the field is cleared and the form hidden |
| DashboardScreen.FormNameIsAccepted | src/screens/DashboardScreen.js:18-26 | A name the form passes on is accepted by the server's create route with 201, and stored unchanged |
| ChangePasswordScreen.Check | src/screens/ChangePasswordScreen.js:13-24 | The first failing check decides: any empty field, then a mismatch, then a new password under 6 UTF-16 units; otherwise accepted |
| ChangePasswordScreen.HandleSaveChanges | src/screens/ChangePasswordScreen.js:12-31 | A failed check shows its alert and makes no call. `changePassword(current, new)` is called iff all checks pass, and the screen goes back iff the call succeeds |
| ChangePasswordScreen.AcceptedIsComplete | src/screens/ChangePasswordScreen.js:13-24 | A form that passes the checks is never answered 400 by the change-password route |
| EditProfileModal.OnOpen | src/components/EditProfileModal.js:9-13 | Opening the modal resets the field to the current name; a closed modal keeps the field |
| EditProfileModal.SaveUneditedCloses | src/components/EditProfileModal.js:9-18 | Opening the modal and then saving without an edit closes it and never calls `onSave`, for a current name that is already trimmed |
| EditProfileModal.HandleSave | src/components/EditProfileModal.js:15-26 | As written: a blank or unchanged name closes without saving. Otherwise `onSave` gets the trimmed name with `isSaving` on, the modal closes iff it resolves true, and `isSaving` is off again whenever it resolves |
| EditProfileModal.SavingStuckWhenOnSaveRejects | src/components/EditProfileModal.js:20-25 | When `onSave` rejects, `isSaving` stays on |
| EditProfileModal.HandleSaveGuarded | src/components/EditProfileModal.js:15-26 | The same decisions with the reset in a `finally`: `isSaving` is off afterwards however `onSave` settles |
| EditProfileModal.GuardedAgreesOnResolve | src/components/EditProfileModal.js:20-25 | When `onSave` resolves, the guarded handler does exactly what the written one does |
| EditProfileModal.SentNameIsClean | src/components/EditProfileModal.js:16-21 | The name sent is not blank, is not the current name, and is already trimmed |

## Left out

- MySQL, Express and body-parser plumbing. The store is a set of in-memory relations. The only failed queries modelled are those given a path id that is not a number: the driver writes `NaN` into the SQL, MySQL rejects it, and the handler answers 500. Other database failures (lost connection, constraint errors) and their 500 replies are not modelled.
- JWT signing and verification. Verification is the parameter `Server.Auth`, and a signed token is modelled by the claims it would carry (`Server.Claims`).
- Cascading deletes. The handlers delete only the parent row, and no schema is part of this model, so the model has none (`ServerProperties.DroppedStudentMarksRemain`).
- Stats.Rate: the rate is the unrounded real ratio. `ROUND(…, 1)`, MySQL returning DECIMAL as a string, and the client's `Number(...)` and `toFixed(1)` are not modelled.
- Text.ToLower: lower-cases ASCII letters only, and MySQL's case-insensitive collation of email comparisons is not modelled. Lookups use exact equality on the lower-cased string.
- Text.Utf16Length: a string is a sequence of code points, so a lone surrogate (which a JavaScript string may hold) cannot be expressed.
- Keys of JavaScript objects are modelled as the numeric ids they spell. String conversion of keys, the ascending reordering of integer-like keys, and `parseInt` of a non-numeric key are not modelled.
- ServerProperties.RecordAttendancePreservesValid: like NewMarksDistinct, NewMarksOfStudent and RecordAttendanceUpserts, it holds only for submissions whose keys are canonical decimal ids (no sign, no leading zeros, no other characters). The keys of `records` are strings, and distinct keys such as `"1"` and `"01"` parse to one id. For such a submission the server deletes that student's mark once and then inserts two marks for the student on that date, or fails after the delete if the table has a unique key. A `Dict` keyed by ids cannot hold that submission.
- ServerProperties.NewMarksDistinct: covers only submissions with canonical decimal keys, for the reason given under ServerProperties.RecordAttendancePreservesValid.
- ServerProperties.NewMarksOfStudent: covers only submissions with canonical decimal keys, for the reason given under ServerProperties.RecordAttendancePreservesValid.
- ServerProperties.RecordAttendanceUpserts: covers only submissions with canonical decimal keys, for the reason given under ServerProperties.RecordAttendancePreservesValid.
- Request bodies are modelled with every field a string or missing. A JSON body may carry a number, array or object instead. With a non-string `name`, `POST /classes` throws at `name.trim()` before its `try` (backend/server.js:191) and never replies. A non-string `email` in register or login (backend/server.js:52, 85), or a non-string name or registration number when enrolling (backend/server.js:247), throws inside the `try` and is answered with 500. A non-boolean `present` value is not modelled either.
- The id counters stand in for AUTO_INCREMENT. Ids are never reused.
- Server.RecordAttendance: the delete runs before the insert, without a transaction. A failure between them is not modelled.
- Concurrency: async interleaving of fetches and React state batching. Each action is one atomic transition, and a `fetchData` it starts is returned as `refetch` rather than run.
- Alerts and console output of `apiFetch`. Only their effect on the cache and the returned data is modelled.
- AppContext.SignIn: the request bodies of login and register (and of `addClass`) are not part of the cache model. The session user's id is whatever the reply carries: the server's login reply has no `userId`, so it is missing in practice.
- AppContext.AddStudent: the reply's `newStudent` is taken as given. The server's enrol reply has no such field, and the client sends `email` where the server expects `registrationNumber`.
- AppContext.DeleteStudent: for a class with no cached slice, the model records only that the next render throws. React's handling of that error afterwards (unmounting the tree, since there is no error boundary) is not modelled.
- AppContext.TakeAttendance: the request is modelled as posted. The client posts to `/attendance/:id` with a records array, while the server expects `/classes/:id/attendance` with a date and a records object. The two sides are modelled as written and not proved to match.
- The cache has no `changePassword` and no `loading`. The screens take them as parameters: `ChangePasswordScreen.ChangeResult` and `TakeAttendanceScreen.Submit`'s `loading`.
- dayjs formatting of dates, the date-based sort of report sections, and the current-date default of the attendance screen. Dates are opaque strings, and sections keep their order of first occurrence.
- ReportsScreen: its rate divides by the number of students, which gives Infinity or NaN with no students.
- Rendering and navigation files (App.js, Header, ClassCard, StudentCard, AttendanceToggle, ClassesScreen, GuestScreen, GuestDashboardScreen, ProfileScreen) and the thin form screens (LoginScreen, RegisterScreen, StudentsScreen). They hold no logic beyond non-empty checks.
- Passwords are stored and compared as plain strings, as the server does. There is no hashing.

## Findings

| source | as written | input that shows it | evidently intended | confidence | as-written member | corrected member |
|---|---|---|---|---|---|---|
| backend/server.js:235-248 | The presence check `!name \|\| !registrationNumber` runs on the raw fields, and only the insert trims them | name `"  "`, registration number `"R-1"`, for an owned class | a name that is blank after trimming is refused with 400, as class creation does | not executed | ServerProperties.EnrollAcceptsBlankName (on Server.EnrollStudent) | ServerProperties.CheckedEnrollRefusesBlankName (on Server.EnrollStudentChecked) |
| src/components/EditProfileModal.js:20-25 | `setIsSaving(false)` follows `await onSave(...)` with no `finally` | a changed name, with `onSave` rejecting | `isSaving` is reset however `onSave` settles | not executed | EditProfileModal.SavingStuckWhenOnSaveRejects (on EditProfileModal.HandleSave) | EditProfileModal.GuardedAgreesOnResolve (on EditProfileModal.HandleSaveGuarded) |

=== FILE: app_context.dfy ===
/** The client's cache of server data (`AppContextProvider`). Each action is
    one atomic transition: from the cache and the server's reply to the next
    cache and the value the action's promise settles with. */
module AppContext {
  import opened JsValues
  import opened Ledger

  /** The signed-in user as the client keeps it. */
  datatype SessionUser = SessionUser(id: Option<int>, email: string, token: string)

  /** A class as the client holds it; the two figures are absent when the
      server did not send them. */
  datatype ClassInfo = ClassInfo(id: ClassId, name: string, students: Option<int>, attendanceRate: Option<real>)

  /** The provider's state. `students` and `attendance` are objects keyed
      by class id; `currentAttendance` maps a student id to present. */
  datatype Cache = Cache(
    user: Option<SessionUser>,
    classes: seq<ClassInfo>,
    students: Dict<ClassId, seq<StudentRow>>,
    attendance: Dict<ClassId, seq<AttendanceRow>>,
    currentAttendance: Dict<StudentId, bool>)

  const Initial: Cache := Cache(None, [], [], [], [])

  /** What `fetch` produced: nothing, because the request threw, or a status
      and a body. The body is `None` when it does not parse as JSON or is
      `null`. */
  datatype Reply<T> = Unreachable | Http(status: int, body: Option<T>)

  predicate Unauthorized<T>(reply: Reply<T>) {
    reply.Http? && reply.status == 401
  }

  /** `response.ok` holds and the body is a JSON object. */
  predicate Succeeded<T>(reply: Reply<T>) {
    reply.Http? && 200 <= reply.status <= 299 && reply.body.Some?
  }

  /** No server data is cached. */
  predicate Blank(c: Cache) {
    c.classes == [] && c.students == [] && c.attendance == []
  }

  /** Without a session no server data is cached. */
  predicate Coherent(c: Cache) {
    c.user.None? ==> Blank(c)
  }

  /** `setUser(u)` together with the effect on `[user]`: when the user
      becomes null, classes, students and attendance are reset. Setting null
      when it is already null re-runs nothing. The fetch the effect starts
      for a new user is the separate `FetchData` step. */
  function SetUser(c: Cache, u: Option<SessionUser>): (r: Cache)
    ensures r.user == u && r.currentAttendance == c.currentAttendance
    ensures c.user.Some? && u.None? ==> Blank(r)
    ensures c.user.None? || u.Some? ==> r == c.(user := u)
  {
    if c.user.Some? && u.None? then Cache(None, [], [], [], c.currentAttendance)
    else c.(user := u)
  }

  /** `logout()`: the session ends and no server data stays cached. */
  function Logout(c: Cache): (r: Cache)
    ensures r.user.None? && r.currentAttendance == c.currentAttendance
    ensures Coherent(c) ==> Blank(r)
    ensures Coherent(r) <==> Coherent(c)
  {
    SetUser(c, None)
  }

  /** `apiFetch`'s result and its only effect on the cache. */
  datatype Fetched<T> = Fetched(cache: Cache, data: Option<T>)

  /** `apiFetch`: a 401 ends the session and yields null; any other non-OK
      status, an unparsable body and a thrown request yield null and change
      nothing; otherwise the parsed body is returned. */
  function ApiFetch<T>(c: Cache, reply: Reply<T>): (r: Fetched<T>)
    ensures r.data.Some? <==> Succeeded(reply)
    ensures Succeeded(reply) ==> r.data == reply.body
    ensures Unauthorized(reply) ==> r.cache == Logout(c)
    ensures !Unauthorized(reply) ==> r.cache == c
  {
    if Unauthorized(reply) then Fetched(Logout(c), None)
    else if Succeeded(reply) then Fetched(c, reply.body)
    else Fetched(c, None)
  }

  // ---- Fetching ----

  /** The body of `GET /data` as the client reads it; a field is `None`
      when it is missing or null. */
  datatype Snapshot = Snapshot(
    classes: Option<seq<ClassInfo>>,
    students: Option<Dict<ClassId, seq<StudentRow>>>,
    attendance: Option<Dict<ClassId, seq<AttendanceRow>>>)

  /** `fetchData(token)`: without a token nothing happens; a successful
      fetch replaces the three collections wholesale, with missing ones
      read as empty; a failed one changes only what `apiFetch` changes. */
  function FetchData(c: Cache, token: Option<string>, reply: Reply<Snapshot>): (r: Cache)
    ensures !Truthy(token) ==> r == c
    ensures Truthy(token) && Succeeded(reply) ==>
              var s := reply.body.value;
              && r.user == c.user && r.currentAttendance == c.currentAttendance
              && r.classes == s.classes.GetOr([])
              && r.students == s.students.GetOr([])
              && r.attendance == s.attendance.GetOr([])
    ensures Truthy(token) && !Succeeded(reply) ==> r == ApiFetch(c, reply).cache
  {
    if !Truthy(token) then c
    else
      var f := ApiFetch(c, reply);
      if f.data.None? then f.cache
      else
        var s := f.data.value;
        f.cache.(classes := s.classes.GetOr([]), students := s.students.GetOr([]),
                 attendance := s.attendance.GetOr([]))
  }

  /** A successful fetch forgets what was cached before: two caches with the
      same session end up equal. */
  lemma FetchDataReplacesWholesale(c1: Cache, c2: Cache, token: Option<string>, reply: Reply<Snapshot>)
    requires c1.user == c2.user && c1.currentAttendance == c2.currentAttendance
    requires Truthy(token) && Succeeded(reply)
    ensures FetchData(c1, token, reply) == FetchData(c2, token, reply)
  {
    var r1, r2 := FetchData(c1, token, reply), FetchData(c2, token, reply);
    assert r1.user == r2.user && r1.classes == r2.classes && r1.students == r2.students;
  }

  // ---- Actions ----

  datatype Outcome = Returned(value: bool) | Threw

  /** The cache after an action, what the action's promise settles with, and
      the token of the `fetchData` the action starts without awaiting it. */
  datatype Step = Step(cache: Cache, outcome: Outcome, refetch: Option<string>)

  /** The reply of `/login` and `/register` as the client reads it. */
  datatype Credentials = Credentials(token: Option<string>, userId: Option<int>)

  /** `login(email, password)` and `register(email, password)`, which treat
      their replies alike: a reply carrying a token starts a session for
      `email` (and the effect on `[user]` fetches its data); anything else
      resolves false. */
  function SignIn(c: Cache, email: string, reply: Reply<Credentials>): (r: Step)
    ensures r.outcome.Returned?
    ensures r.outcome == Returned(true) <==> Succeeded(reply) && Truthy(reply.body.value.token)
    ensures r.outcome == Returned(true) ==>
              && r.cache == c.(user := Some(SessionUser(reply.body.value.userId, email, reply.body.value.token.value)))
              && r.refetch == Some(reply.body.value.token.value)
    ensures r.outcome == Returned(false) ==> r.cache == ApiFetch(c, reply).cache && r.refetch.None?
  {
    var f := ApiFetch(c, reply);
    if f.data.Some? && Truthy(f.data.value.token) then
      var token := f.data.value.token.value;
      Step(SetUser(f.cache, Some(SessionUser(f.data.value.userId, email, token))), Returned(true), Some(token))
    else
      Step(f.cache, Returned(false), None)
  }

  /** The reply of `POST /classes` as the client reads it. */
  datatype CreatedClass = CreatedClass(newClass: ClassInfo)

  /** `addClass(name)`: on success the returned class is appended and its
      student and attendance slices start empty; no other slice changes. */
  function AddClass(c: Cache, reply: Reply<CreatedClass>): (r: Step)
    ensures r.outcome == Returned(Succeeded(reply)) && r.refetch.None?
    ensures !Succeeded(reply) ==> r.cache == ApiFetch(c, reply).cache
    ensures Succeeded(reply) ==>
              var nc := reply.body.value.newClass;
              && r.cache.user == c.user && r.cache.currentAttendance == c.currentAttendance
              && r.cache.classes == c.classes + [nc]
              && Lookup(r.cache.students, nc.id) == Some([])
              && Lookup(r.cache.attendance, nc.id) == Some([])
              && KeySet(r.cache.students) == KeySet(c.students) + {nc.id}
              && KeySet(r.cache.attendance) == KeySet(c.attendance) + {nc.id}
              && (forall k :: k != nc.id ==>
                    Lookup(r.cache.students, k) == Lookup(c.students, k)
                    && Lookup(r.cache.attendance, k) == Lookup(c.attendance, k))
  {
    var f := ApiFetch(c, reply);
    if f.data.None? then Step(f.cache, Returned(false), None)
    else
      var nc := f.data.value.newClass;
      Step(f.cache.(classes := f.cache.classes + [nc],
                    students := Put(f.cache.students, nc.id, []),
                    attendance := Put(f.cache.attendance, nc.id, [])),
           Returned(true), None)
  }

  /** The reply of `POST /classes/:id/students` as the client reads it. */
  datatype EnrolledStudent = EnrolledStudent(newStudent: StudentRow)

  /** `addStudent(classId, name, email)`: on success the returned student is
      appended to that class's slice (an absent slice counts as empty) and
      no other slice changes; the data is then refetched with the session's
      token, and without a session reading `user.token` throws. */
  function AddStudent(c: Cache, classId: ClassId, reply: Reply<EnrolledStudent>): (r: Step)
    ensures !Succeeded(reply) ==> r == Step(ApiFetch(c, reply).cache, Returned(false), None)
    ensures Succeeded(reply) ==>
              && r.cache == c.(students := r.cache.students)
              && Lookup(r.cache.students, classId)
                   == Some(Lookup(c.students, classId).GetOr([]) + [reply.body.value.newStudent])
              && (forall k :: k != classId ==> Lookup(r.cache.students, k) == Lookup(c.students, k))
              && (c.user.Some? <==> r.outcome == Returned(true))
              && (c.user.None? <==> r.outcome == Threw)
              && r.refetch == (if c.user.Some? then Some(c.user.value.token) else None)
  {
    var f := ApiFetch(c, reply);
    if f.data.None? then Step(f.cache, Returned(false), None)
    else
      var slice := Lookup(f.cache.students, classId).GetOr([]);
      var next := f.cache.(students := Put(f.cache.students, classId, slice + [f.data.value.newStudent]));
      if next.user.None? then Step(next, Threw, None)
      else Step(next, Returned(true), Some(next.user.value.token))
  }

  /** The condition `s => s.id !== studentId`. */
  function OtherStudent(studentId: StudentId): StudentRow -> bool {
    (s: StudentRow) => s.id != studentId
  }

  /** What `deleteStudent` leaves behind: the step, and whether the next
      render throws. */
  datatype Removal = Removal(step: Step, renderThrows: bool)

  /** `deleteStudent(classId, studentId)`: on success the students with that
      id leave that class's slice and no other slice changes; the data is
      then refetched, and without a session reading `user.token` throws.
      The filter runs inside the updater given to `setStudents`, which React
      applies when it computes the next state, not during the call: for a
      class whose slice the cache does not hold, the updater's error comes
      out at the next render and no new state is committed, while the action
      has already gone on to refetch and settle as it would otherwise. */
  function DeleteStudent(c: Cache, classId: ClassId, studentId: StudentId, reply: Reply<()>): (r: Removal)
    ensures !Succeeded(reply) ==> r == Removal(Step(ApiFetch(c, reply).cache, Returned(false), None), false)
    ensures Succeeded(reply) ==>
              && (c.user.Some? <==> r.step.outcome == Returned(true))
              && (c.user.None? <==> r.step.outcome == Threw)
              && r.step.refetch == (if c.user.Some? then Some(c.user.value.token) else None)
              && (r.renderThrows <==> classId !in KeySet(c.students))
    ensures Succeeded(reply) && classId !in KeySet(c.students) ==> r.step.cache == c
    ensures Succeeded(reply) && classId in KeySet(c.students) ==>
              var kept := Filter(Lookup(c.students, classId).value, OtherStudent(studentId));
              && r.step.cache == c.(students := r.step.cache.students)
              && Lookup(r.step.cache.students, classId) == Some(kept)
              && (forall i :: 0 <= i < |kept| ==> kept[i].id != studentId)
              && KeySet(r.step.cache.students) == KeySet(c.students)
              && (forall k :: k != classId ==> Lookup(r.step.cache.students, k) == Lookup(c.students, k))
  {
    var f := ApiFetch(c, reply);
    if f.data.None? then Removal(Step(f.cache, Returned(false), None), false)
    else
      var (next, renderThrows) :=
        match Lookup(f.cache.students, classId)
        case None => (f.cache, true)
        case Some(slice) =>
          (f.cache.(students := Put(f.cache.students, classId, Filter(slice, OtherStudent(studentId)))), false);
      if next.user.None? then Removal(Step(next, Threw, None), renderThrows)
      else Removal(Step(next, Returned(true), Some(next.user.value.token)), renderThrows)
  }

  /** One element of the `records` array `takeAttendance` posts. */
  datatype SubmittedRecord = SubmittedRecord(date: Date, studentId: StudentId, present: bool)

  /** `Object.entries(currentAttendance).map(...)`: one record per entry, in
      entry order, each carrying `date`. */
  function RecordsOf(current: Dict<StudentId, bool>, date: Date): (rs: seq<SubmittedRecord>)
    ensures |rs| == |current|
    ensures forall i :: 0 <= i < |rs| ==> rs[i].date == date && rs[i].studentId in KeySet(current)
  {
    if |current| == 0 then []
    else
      assert DistinctKeys(current[1..]);
      [SubmittedRecord(date, current[0].0, current[0].1)] + RecordsOf(current[1..], date)
  }

  /** The condition "is the record for student `k`". */
  function RecordFor(k: StudentId): SubmittedRecord -> bool {
    (r: SubmittedRecord) => r.studentId == k
  }

  /** Each entry of `currentAttendance` gives exactly one record, carrying
      the entry's present value. */
  lemma {:induction false} RecordsOnePerEntry(current: Dict<StudentId, bool>, date: Date, k: StudentId)
    requires k in KeySet(current)
    ensures Filter(RecordsOf(current, date), RecordFor(k)) == [SubmittedRecord(date, k, Lookup(current, k).value)]
  {
    var rs := RecordsOf(current, date);
    var rest := current[1..];
    assert DistinctKeys(rest);
    assert rs[1..] == RecordsOf(rest, date);
    if current[0].0 == k {
      forall i | 0 <= i < |rs[1..]| ensures !RecordFor(k)(rs[1..][i]) {
        assert rs[1..][i].studentId in KeySet(rest);
        assert forall j :: 0 <= j < |rest| ==> rest[j].0 != k by {
          assert forall j :: 1 <= j < |current| ==> current[j].0 != current[0].0;
        }
        NotInKeySet(rest, k);
      }
      FilterNone(rs[1..], RecordFor(k));
    } else {
      RecordsOnePerEntry(rest, date, k);
    }
  }

  /** The reply of `POST /attendance/:classId` as the client reads it. */
  datatype AttendanceSaved = AttendanceSaved(
    attendance: Option<Dict<ClassId, seq<AttendanceRow>>>,
    classes: Option<seq<ClassInfo>>)

  /** The request `takeAttendance` sends. */
  datatype AttendanceRequest = AttendanceRequest(classId: ClassId, records: seq<SubmittedRecord>)

  datatype Posted = Posted(request: AttendanceRequest, step: Step)

  /** `takeAttendance(classId, date)`: posts one record per entry of
      `currentAttendance`; on success attendance and classes are replaced by
      the reply's (missing ones read as empty) and `currentAttendance` is
      cleared; on failure only `apiFetch`'s effect remains. */
  function TakeAttendance(c: Cache, classId: ClassId, date: Date, reply: Reply<AttendanceSaved>): (r: Posted)
    ensures r.request == AttendanceRequest(classId, RecordsOf(c.currentAttendance, date))
    ensures r.step.outcome == Returned(Succeeded(reply)) && r.step.refetch.None?
    ensures !Succeeded(reply) ==> r.step.cache == ApiFetch(c, reply).cache
    ensures Succeeded(reply) ==>
              && r.step.cache.user == c.user && r.step.cache.students == c.students
              && r.step.cache.attendance == reply.body.value.attendance.GetOr([])
              && r.step.cache.classes == reply.body.value.classes.GetOr([])
              && r.step.cache.currentAttendance == []
  {
    var request := AttendanceRequest(classId, RecordsOf(c.currentAttendance, date));
    var f := ApiFetch(c, reply);
    if f.data.None? then Posted(request, Step(f.cache, Returned(false), None))
    else
      var saved := f.data.value;
      Posted(request, Step(f.cache.(attendance := saved.attendance.GetOr([]),
                                    classes := saved.classes.GetOr([]),
                                    currentAttendance := []),
                           Returned(true), None))
  }

  // ---- Properties across actions ----

  /** A 401 from any endpoint is a logout, whatever the action. */
  lemma UnauthorizedLogsOut(c: Cache, email: string, classId: ClassId, studentId: StudentId, date: Date,
                            token: Option<string>, status: int)
    requires status == 401
    ensures SignIn(c, email, Http(status, None)).cache == Logout(c)
    ensures AddClass(c, Http(status, None)).cache == Logout(c)
    ensures AddStudent(c, classId, Http(status, None)).cache == Logout(c)
    ensures DeleteStudent(c, classId, studentId, Http(status, None)).step.cache == Logout(c)
    ensures TakeAttendance(c, classId, date, Http(status, None)).step.cache == Logout(c)
    ensures Truthy(token) ==> FetchData(c, token, Http(status, None)) == Logout(c)
  {
  }

  /** A request sent without a session carries no token, so it does not
      succeed: the server answers it 401, or it never arrives. */
  predicate SessionGuarded<T>(c: Cache, reply: Reply<T>) {
    c.user.None? ==> !Succeeded(reply)
  }

  /** Fetching keeps "no session, no cached data", given that requests
      without a session are refused. */
  lemma FetchDataKeepsCoherent(c: Cache, token: Option<string>, reply: Reply<Snapshot>)
    requires Coherent(c) && SessionGuarded(c, reply)
    ensures Coherent(FetchData(c, token, reply))
  {
  }

  /** Signing in keeps "no session, no cached data". */
  lemma SignInKeepsCoherent(c: Cache, email: string, reply: Reply<Credentials>)
    requires Coherent(c)
    ensures Coherent(SignIn(c, email, reply).cache)
  {
  }

  lemma AddClassKeepsCoherent(c: Cache, reply: Reply<CreatedClass>)
    requires Coherent(c) && SessionGuarded(c, reply)
    ensures Coherent(AddClass(c, reply).cache)
  {
  }

  lemma AddStudentKeepsCoherent(c: Cache, classId: ClassId, reply: Reply<EnrolledStudent>)
    requires Coherent(c) && SessionGuarded(c, reply)
    ensures Coherent(AddStudent(c, classId, reply).cache)
  {
  }

  lemma DeleteStudentKeepsCoherent(c: Cache, classId: ClassId, studentId: StudentId, reply: Reply<()>)
    requires Coherent(c) && SessionGuarded(c, reply)
    ensures Coherent(DeleteStudent(c, classId, studentId, reply).step.cache)
  {
  }

  lemma TakeAttendanceKeepsCoherent(c: Cache, classId: ClassId, date: Date, reply: Reply<AttendanceSaved>)
    requires Coherent(c) && SessionGuarded(c, reply)
    ensures Coherent(TakeAttendance(c, classId, date, reply).step.cache)
  {
  }

  /** Deleting the student just added leaves the class's slice as it was,
      less any earlier students with the same id. */
  lemma AddThenDeleteStudent(c: Cache, classId: ClassId, s: StudentRow,
                             enrolled: Reply<EnrolledStudent>, deleted: Reply<()>)
    requires Succeeded(enrolled) && enrolled.body.value.newStudent == s
    requires Succeeded(deleted)
    ensures var added := AddStudent(c, classId, enrolled).cache;
            var after := DeleteStudent(added, classId, s.id, deleted).step.cache;
            Lookup(after.students, classId)
              == Some(Filter(Lookup(c.students, classId).GetOr([]), OtherStudent(s.id)))
  {
    var before := Lookup(c.students, classId).GetOr([]);
    var added := AddStudent(c, classId, enrolled).cache;
    assert Lookup(added.students, classId) == Some(before + [s]);
    var after := DeleteStudent(added, classId, s.id, deleted).step.cache;
    assert Lookup(after.students, classId) == Some(Filter(before + [s], OtherStudent(s.id)));
    FilterAppend(before, [s], OtherStudent(s.id));
    assert Filter([s], OtherStudent(s.id)) == [];
    assert Filter(before + [s], OtherStudent(s.id)) == Filter(before, OtherStudent(s.id));
  }
}

=== FILE: change_password.dfy ===
/** The change-password form (`ChangePasswordScreen`): three checks in a
    fixed order, then the call. */
module ChangePasswordScreen {
  import opened JsValues
  import opened Text
  import opened Ledger
  import Server

  /** The first check that fails, or `Accepted` when none does. */
  datatype Verdict = MissingFields | Mismatch | TooShort | Accepted

  /** The checks of `handleSaveChanges` in order: a field left empty, a
      confirmation that differs, a new password under 6 UTF-16 code units. */
  function Check(current: string, replacement: string, confirmation: string): (v: Verdict)
    ensures v == MissingFields <==> current == "" || replacement == "" || confirmation == ""
    ensures v == Mismatch <==> current != "" && replacement != "" && confirmation != "" && replacement != confirmation
    ensures v == TooShort <==> current != "" && replacement != "" && replacement == confirmation
                               && Utf16Length(replacement) < 6
    ensures v == Accepted <==> current != "" && replacement == confirmation && Utf16Length(replacement) >= 6
  {
    if current == "" || replacement == "" || confirmation == "" then MissingFields
    else if replacement != confirmation then Mismatch
    else if Utf16Length(replacement) < 6 then TooShort
    else Accepted
  }

  /** What `changePassword` resolves with. */
  datatype ChangeResult = ChangeResult(success: bool, message: Option<string>)

  /** What `handleSaveChanges` does, in order. */
  datatype Effect = Alert(title: string, text: string) | CallChangePassword(current: string, replacement: string) | GoBack

  const DefaultSuccessText: string := "Your password has been changed successfully."

  /** The alert a failed check raises. */
  function RefusalAlert(v: Verdict): Effect
    requires v != Accepted
  {
    match v
    case MissingFields => Alert("Missing Fields", "Please fill in all password fields.")
    case Mismatch => Alert("Passwords Do Not Match", "Your new password and confirmation do not match.")
    case TooShort => Alert("Password Too Short", "Your new password must be at least 6 characters long.")
  }

  /** `handleSaveChanges`, given what `changePassword` resolves with: the
      first failing check alerts and nothing is sent; otherwise the current
      and new passwords are sent, and only a success alerts and goes back. */
  function HandleSaveChanges(current: string, replacement: string, confirmation: string, result: ChangeResult)
    : (effects: seq<Effect>)
    ensures Check(current, replacement, confirmation) != Accepted ==>
              effects == [RefusalAlert(Check(current, replacement, confirmation))]
    ensures (exists i :: 0 <= i < |effects| && effects[i].CallChangePassword?)
              <==> Check(current, replacement, confirmation) == Accepted
    ensures Check(current, replacement, confirmation) == Accepted ==>
              effects[0] == CallChangePassword(current, replacement)
    ensures GoBack in effects <==> Check(current, replacement, confirmation) == Accepted && result.success
  {
    var v := Check(current, replacement, confirmation);
    if v != Accepted then [RefusalAlert(v)]
    else
      var call := CallChangePassword(current, replacement);
      var text := if Truthy(result.message) then result.message.value else DefaultSuccessText;
      var effects := [call] + (if result.success then [Alert("Success", text), GoBack] else []);
      assert effects[0] == call;
      effects
  }

  /** The form never sends what `POST /change-password` would refuse as
      incomplete: after the checks pass, the server's answer is not 400. */
  lemma AcceptedIsComplete(current: string, replacement: string, confirmation: string,
                           st: Store, userId: UserId)
    requires Check(current, replacement, confirmation) == Accepted
    ensures Server.ChangePassword(st, Server.Verified(userId), Some(current), Some(replacement)).response.status != 400
  {
  }
}

=== FILE: class_detail.dfy ===
/** One class's overview (`ClassDetailScreen`): finding the class, the
    colour of its attendance rate and the guard on taking attendance. */
module ClassDetailScreen {
  import opened JsValues
  import opened Ledger
  import opened AppContext

  /** `classes.find(c => c.id === Number(classId))`: the first class with the
      id. A route id that is not a number (`NaN`) matches no class. */
  function FindClass(classes: seq<ClassInfo>, id: Option<int>): (r: Option<ClassInfo>)
    ensures r.None? <==> id.None? || forall i :: 0 <= i < |classes| ==> classes[i].id != id.value
    ensures r.Some? ==> exists k :: 0 <= k < |classes| && classes[k] == r.value && classes[k].id == id.value
                                   && forall j :: 0 <= j < k ==> classes[j].id != id.value
  {
    if id.None? || |classes| == 0 then None
    else if classes[0].id == id.value then Some(classes[0])
    else
      var r := FindClass(classes[1..], id);
      if r.Some? then
        var k :| 0 <= k < |classes[1..]| && classes[1..][k] == r.value && classes[1..][k].id == id.value
                  && forall j :: 0 <= j < k ==> classes[1..][j].id != id.value;
        assert classes[k + 1] == r.value;
        assert forall j :: 1 <= j < k + 1 ==> classes[j] == classes[1..][j - 1];
        r
      else r
  }

  /** `Number(currentClass.attendanceRate || 0)`: a missing rate reads as 0. */
  function RateOf(c: ClassInfo): real {
    c.attendanceRate.GetOr(0.0)
  }

  datatype Colour = Green | Orange | Red

  /** `rateColor`: green from 90, orange from 70, red below. */
  function RateColour(rate: real): (c: Colour)
    ensures c == Green <==> rate >= 90.0
    ensures c == Orange <==> 70.0 <= rate < 90.0
    ensures c == Red <==> rate < 70.0
  {
    if rate >= 90.0 then Green else if rate >= 70.0 then Orange else Red
  }

  /** The bands in order of merit. */
  function Merit(c: Colour): nat {
    match c
    case Red => 0
    case Orange => 1
    case Green => 2
  }

  /** A higher rate never gets a worse colour. */
  lemma RateColourMonotone(a: real, b: real)
    requires a <= b
    ensures Merit(RateColour(a)) <= Merit(RateColour(b))
  {
  }

  /** What the screen shows. */
  datatype View =
    | Spinner
    | Overview(students: Option<int>, rate: real, colour: Colour, buttonsEnabled: bool)

  /** The screen: a spinner until the class is found, then its figures, the
      rate's colour, and buttons that are disabled while loading. */
  function Render(classes: seq<ClassInfo>, id: Option<int>, loading: bool): (v: View)
    ensures v.Spinner? <==> FindClass(classes, id).None?
    ensures v.Overview? ==>
              var c := FindClass(classes, id).value;
              && v.students == c.students && v.rate == RateOf(c)
              && v.colour == RateColour(RateOf(c)) && (v.buttonsEnabled <==> !loading)
  {
    match FindClass(classes, id)
    case None => Spinner
    case Some(c) => Overview(c.students, RateOf(c), RateColour(RateOf(c)), !loading)
  }

  datatype Navigation = CannotTakeAttendance | OpenTakeAttendance(classId: Option<int>)

  /** `navigateToAttendance`: blocked exactly when the class reports zero
      students; a missing count does not block. */
  function NavigateToAttendance(c: ClassInfo, classId: Option<int>): (n: Navigation)
    ensures n == CannotTakeAttendance <==> c.students == Some(0)
    ensures n != CannotTakeAttendance ==> n == OpenTakeAttendance(classId)
  {
    if c.students == Some(0) then CannotTakeAttendance else OpenTakeAttendance(classId)
  }

  /** A class just added from the dashboard is found by its own id, and
      while the server reports no students for it, attendance cannot be
      taken. */
  lemma NewClassBlocksAttendance(c: Cache, reply: Reply<CreatedClass>)
    requires Succeeded(reply) && reply.body.value.newClass.students == Some(0)
    requires forall i :: 0 <= i < |c.classes| ==> c.classes[i].id != reply.body.value.newClass.id
    ensures var nc := reply.body.value.newClass;
            var classes := AddClass(c, reply).cache.classes;
            && FindClass(classes, Some(nc.id)) == Some(nc)
            && NavigateToAttendance(nc, Some(nc.id)) == CannotTakeAttendance
  {
    var nc := reply.body.value.newClass;
    var classes := AddClass(c, reply).cache.classes;
    assert classes == c.classes + [nc];
    assert classes[|c.classes|] == nc;
    var found := FindClass(classes, Some(nc.id));
    var k :| 0 <= k < |classes| && classes[k] == found.value && classes[k].id == nc.id
              && forall j :: 0 <= j < k ==> classes[j].id != nc.id;
    assert k == |c.classes|;
  }
}

=== FILE: class_reports.dfy ===
/** The per-class report (`ClassReportsScreen`): attendance records grouped
    by date and labelled with student names, and the one expandable
    section. */
module ClassReportsScreen {
  import opened JsValues
  import opened Ledger

  /** `studentMap`: each student's id mapped to its name, a later student
      with the same id overriding an earlier one. */
  function StudentNames(roster: seq<StudentRow>): (m: Dict<StudentId, string>)
    ensures forall k :: k in KeySet(m) <==> HasId(roster, k)
  {
    if |roster| == 0 then []
    else
      var front := roster[..|roster| - 1];
      var last := roster[|roster| - 1];
      assert forall k :: HasId(roster, k) <==> HasId(front, k) || k == last.id by {
        forall k | HasId(roster, k) ensures HasId(front, k) || k == last.id {
          var i :| 0 <= i < |roster| && roster[i].id == k;
          if i < |front| {
            assert front[i].id == k;
          }
        }
        forall k | HasId(front, k) ensures HasId(roster, k) {
          var i :| 0 <= i < |front| && front[i].id == k;
          assert roster[i].id == k;
        }
      }
      Put(StudentNames(front), last.id, last.name)
  }

  /** The name a student id maps to is that of the last student with the id. */
  lemma {:induction false} StudentNamesLastWins(roster: seq<StudentRow>, i: int)
    requires 0 <= i < |roster| && LastWithId(roster, i)
    ensures Lookup(StudentNames(roster), roster[i].id) == Some(roster[i].name)
  {
    var front := roster[..|roster| - 1];
    var last := roster[|roster| - 1];
    if i < |front| {
      assert roster[i].id != last.id;
      assert front[i] == roster[i];
      assert LastWithId(front, i) by {
        forall j | i < j < |front| ensures front[j].id != front[i].id {
          assert front[j] == roster[j];
        }
      }
      StudentNamesLastWins(front, i);
    }
  }

  predicate HasId(roster: seq<StudentRow>, k: StudentId) {
    exists i :: 0 <= i < |roster| && roster[i].id == k
  }

  /** No later student of the roster has the id of student `i`. */
  predicate LastWithId(roster: seq<StudentRow>, i: int)
    requires 0 <= i < |roster|
  {
    forall j :: i < j < |roster| ==> roster[j].id != roster[i].id
  }

  const UnknownStudent: string := "Unknown Student"

  /** `studentMap[id] || 'Unknown Student'`: an unknown id and an empty name
      both read as unknown. */
  function Label(names: Dict<StudentId, string>, id: StudentId): (s: string)
    ensures s != ""
    ensures id !in KeySet(names) ==> s == UnknownStudent
    ensures Lookup(names, id).Some? && Lookup(names, id).value != "" ==> s == Lookup(names, id).value
  {
    match Lookup(names, id)
    case Some(n) => if n != "" then n else UnknownStudent
    case None => UnknownStudent
  }

  /** One line of a section. */
  datatype Item = Item(studentName: string, present: bool)

  function ItemOf(names: Dict<StudentId, string>, r: AttendanceRow): Item {
    Item(Label(names, r.studentId), r.present)
  }

  /** The records' lines, in record order. */
  function Items(names: Dict<StudentId, string>, rs: seq<AttendanceRow>): (items: seq<Item>)
    ensures |items| == |rs|
    ensures forall i :: 0 <= i < |rs| ==> items[i] == ItemOf(names, rs[i])
  {
    if |rs| == 0 then [] else [ItemOf(names, rs[0])] + Items(names, rs[1..])
  }

  lemma {:induction false} ItemsAppend(names: Dict<StudentId, string>, a: seq<AttendanceRow>, b: seq<AttendanceRow>)
    ensures Items(names, a + b) == Items(names, a) + Items(names, b)
  {
    var l, r := Items(names, a + b), Items(names, a) + Items(names, b);
    assert |l| == |r|;
    forall i | 0 <= i < |l| ensures l[i] == r[i] {
      if i < |a| {
        assert (a + b)[i] == a[i];
      } else {
        assert (a + b)[i] == b[i - |a|];
      }
    }
  }

  /** The condition "was taken on date `d`". */
  function OnDate(d: Date): AttendanceRow -> bool {
    (r: AttendanceRow) => r.date == d
  }

  predicate HasDate(rs: seq<AttendanceRow>, d: Date) {
    exists i :: 0 <= i < |rs| && rs[i].date == d
  }

  /** `groupedByDate`: the records folded, in order, into an object keyed by
      date; a record's line is appended to its date's list, which is
      created on the date's first occurrence. */
  function GroupByDate(names: Dict<StudentId, string>, rs: seq<AttendanceRow>): (g: Dict<Date, seq<Item>>)
    ensures forall d :: d in KeySet(g) <==> HasDate(rs, d)
  {
    if |rs| == 0 then []
    else
      var front := rs[..|rs| - 1];
      var last := rs[|rs| - 1];
      var g := GroupByDate(names, front);
      HasDateSnoc(rs);
      Put(g, last.date, Lookup(g, last.date).GetOr([]) + [ItemOf(names, last)])
  }

  /** The dates of some records are those of all but the last, and the last's. */
  lemma HasDateSnoc(rs: seq<AttendanceRow>)
    requires |rs| > 0
    ensures forall d :: HasDate(rs, d) <==> HasDate(rs[..|rs| - 1], d) || d == rs[|rs| - 1].date
  {
    var front := rs[..|rs| - 1];
    forall d | HasDate(rs, d) ensures HasDate(front, d) || d == rs[|rs| - 1].date {
      var i :| 0 <= i < |rs| && rs[i].date == d;
      if i < |front| {
        assert front[i].date == d;
      }
    }
    forall d | HasDate(front, d) ensures HasDate(rs, d) {
      var i :| 0 <= i < |front| && front[i].date == d;
      assert rs[i].date == d;
    }
  }

  /** Every date's group holds exactly the lines of that date's records, in
      record order, each with the record's present value. */
  lemma {:induction false} GroupContents(names: Dict<StudentId, string>, rs: seq<AttendanceRow>, d: Date)
    requires HasDate(rs, d)
    ensures Lookup(GroupByDate(names, rs), d) == Some(Items(names, Filter(rs, OnDate(d))))
  {
    var front := rs[..|rs| - 1];
    var last := rs[|rs| - 1];
    assert rs == front + [last];
    if HasDate(front, d) {
      GroupContents(names, front, d);
    } else {
      assert last.date == d;
      FilterNone(front, OnDate(d));
    }
    GroupStep(names, front, last, d);
  }

  /** One step of the fold: the group of `d` after one more record. */
  lemma GroupStep(names: Dict<StudentId, string>, front: seq<AttendanceRow>, last: AttendanceRow, d: Date)
    requires Lookup(GroupByDate(names, front), d).GetOr([]) == Items(names, Filter(front, OnDate(d)))
    requires HasDate(front, d) || last.date == d
    ensures Lookup(GroupByDate(names, front + [last]), d) == Some(Items(names, Filter(front + [last], OnDate(d))))
  {
    var rs := front + [last];
    var g := GroupByDate(names, front);
    var items := Lookup(g, last.date).GetOr([]) + [ItemOf(names, last)];
    var before := Filter(front, OnDate(d));
    assert GroupByDate(names, rs) == Put(g, last.date, items) by {
      GroupUnfold(names, front, last);
    }
    if last.date == d {
      assert Filter(rs, OnDate(d)) == before + [last] by {
        FilterSnoc(front, last, OnDate(d));
      }
      GroupStepSameDate(names, g, before, last, d);
    } else {
      assert Filter(rs, OnDate(d)) == before by {
        FilterSnoc(front, last, OnDate(d));
      }
      assert d in KeySet(g);
      assert Lookup(Put(g, last.date, items), d) == Lookup(g, d);
    }
  }

  /** A record of date `d` extends the group of `d` by its own line. */
  lemma GroupStepSameDate(names: Dict<StudentId, string>, g: Dict<Date, seq<Item>>,
                          before: seq<AttendanceRow>, last: AttendanceRow, d: Date)
    requires last.date == d && Lookup(g, d).GetOr([]) == Items(names, before)
    ensures Lookup(Put(g, d, Lookup(g, d).GetOr([]) + [ItemOf(names, last)]), d)
         == Some(Items(names, before + [last]))
  {
    ItemsAppend(names, before, [last]);
    assert Items(names, [last]) == [ItemOf(names, last)];
  }

  /** The fold's last step, unfolded. */
  lemma GroupUnfold(names: Dict<StudentId, string>, front: seq<AttendanceRow>, last: AttendanceRow)
    ensures var g := GroupByDate(names, front);
            GroupByDate(names, front + [last])
              == Put(g, last.date, Lookup(g, last.date).GetOr([]) + [ItemOf(names, last)])
  {
    var rs := front + [last];
    assert rs[..|rs| - 1] == front;
    assert rs[|rs| - 1] == last;
  }

  /** Selecting from a table with one more row. */
  lemma FilterSnoc<T>(front: seq<T>, last: T, p: T -> bool)
    ensures Filter(front + [last], p) == Filter(front, p) + (if p(last) then [last] else [])
  {
    FilterAppend(front, [last], p);
    assert [last][1..] == [];
  }

  /** There is one group per distinct date. */
  lemma GroupCount(names: Dict<StudentId, string>, rs: seq<AttendanceRow>)
    ensures |GroupByDate(names, rs)| == |set i | 0 <= i < |rs| :: rs[i].date|
  {
    var g := GroupByDate(names, rs);
    KeyCount(g);
    assert KeySet(g) == set i | 0 <= i < |rs| :: rs[i].date;
  }

  /** `reportData`: nothing when the class has no students or no records,
      otherwise the records grouped by date. Each entry is one section: its
      date and its lines. */
  function Report(roster: seq<StudentRow>, records: seq<AttendanceRow>): (sections: Dict<Date, seq<Item>>)
    ensures |roster| == 0 || |records| == 0 ==> sections == []
    ensures |roster| > 0 ==> forall d :: d in KeySet(sections) <==> HasDate(records, d)
  {
    if |roster| == 0 || |records| == 0 then [] else GroupByDate(StudentNames(roster), records)
  }

  /** `handleToggleSection(title)`: pressing the expanded section collapses
      it; pressing any other makes it the only expanded one. */
  function ToggleSection(expanded: Option<Date>, title: Date): (r: Option<Date>)
    ensures r == Some(title) <==> expanded != Some(title)
    ensures r.None? <==> expanded == Some(title)
  {
    if expanded == Some(title) then None else Some(title)
  }

  /** The lines `renderItem` draws: those of the section whose title is the
      expanded one, section by section. */
  function Rendered(sections: seq<(Date, seq<Item>)>, expanded: Option<Date>): seq<Item> {
    if |sections| == 0 then []
    else (if expanded == Some(sections[0].0) then sections[0].1 else []) + Rendered(sections[1..], expanded)
  }

  /** Only the expanded section's lines are drawn, and none when no section
      is expanded. */
  lemma {:induction false} RenderedIsExpanded(sections: Dict<Date, seq<Item>>, expanded: Option<Date>)
    ensures expanded.None? ==> Rendered(sections, expanded) == []
    ensures expanded.Some? ==> Rendered(sections, expanded) == Lookup(sections, expanded.value).GetOr([])
  {
    if |sections| > 0 {
      assert DistinctKeys(sections[1..]);
      RenderedIsExpanded(sections[1..], expanded);
      if expanded == Some(sections[0].0) {
        NotInKeySet(sections[1..], sections[0].0);
      }
    }
  }
}

=== FILE: dashboard.dfy ===
/** The instructor's dashboard (`DashboardScreen`): the two totals and the
    add-class form. */
module DashboardScreen {
  import opened JsValues
  import opened Text
  import opened Ledger
  import opened AppContext
  import Server

  /** `cls.students || 0`: a missing count reads as 0. */
  function Count(c: ClassInfo): int {
    c.students.GetOr(0)
  }

  /** The sum of the classes' counts, folded left to right as `reduce` does. */
  function SumCounts(classes: seq<ClassInfo>): int {
    if |classes| == 0 then 0
    else SumCounts(classes[..|classes| - 1]) + Count(classes[|classes| - 1])
  }

  /** The sum splits over a concatenation. */
  lemma {:induction false} SumCountsAppend(a: seq<ClassInfo>, b: seq<ClassInfo>)
    ensures SumCounts(a + b) == SumCounts(a) + SumCounts(b)
  {
    if |b| > 0 {
      assert (a + b)[..|a + b| - 1] == a + b[..|b| - 1];
      SumCountsAppend(a, b[..|b| - 1]);
    } else {
      assert a + b == a;
    }
  }

  /** With no negative count the total is not negative. */
  lemma {:induction false} SumCountsNonNegative(classes: seq<ClassInfo>)
    requires forall j :: 0 <= j < |classes| ==> Count(classes[j]) >= 0
    ensures SumCounts(classes) >= 0
  {
    if |classes| > 0 {
      var front := classes[..|classes| - 1];
      assert forall j :: 0 <= j < |front| ==> front[j] == classes[j];
      SumCountsNonNegative(front);
    }
  }

  /** `totalStudents`: a null class list gives 0. */
  function TotalStudents(classes: Option<seq<ClassInfo>>): (n: int)
    ensures classes.None? ==> n == 0
  {
    SumCounts(classes.GetOr([]))
  }

  /** The "Total Classes" figure: `(classes || []).length`. */
  function TotalClasses(classes: Option<seq<ClassInfo>>): (n: nat)
    ensures classes.None? ==> n == 0
    ensures classes.Some? ==> n == |classes.value|
  {
    |classes.GetOr([])|
  }

  /** Adding a class moves the totals by one class and by that class's
      count, whatever the other classes hold. */
  lemma AddClassMovesTotals(c: Cache, reply: Reply<CreatedClass>)
    requires Succeeded(reply)
    ensures var classes := AddClass(c, reply).cache.classes;
            && TotalClasses(Some(classes)) == TotalClasses(Some(c.classes)) + 1
            && TotalStudents(Some(classes)) == TotalStudents(Some(c.classes)) + Count(reply.body.value.newClass)
  {
    var nc := reply.body.value.newClass;
    SumCountsAppend(c.classes, [nc]);
    assert SumCounts([nc]) == Count(nc) by {
      assert [nc][..0] == [];
    }
  }

  /** What the screen shows. */
  datatype View = FullLoader | Overview(totalClasses: nat, totalStudents: int)

  /** The full-screen loader replaces the overview only while loading with
      no class yet. */
  function Render(loading: bool, classes: seq<ClassInfo>): (v: View)
    ensures v.FullLoader? <==> loading && |classes| == 0
    ensures v.Overview? ==> v == Overview(TotalClasses(Some(classes)), TotalStudents(Some(classes)))
  {
    if loading && |classes| == 0 then FullLoader
    else Overview(TotalClasses(Some(classes)), TotalStudents(Some(classes)))
  }

  /** What `handleAddClass` does, in order. `addClass` is not awaited. */
  datatype Effect = Alert(title: string) | CallAddClass(name: string) | SetNewClassName(text: string) | SetModalVisible(on: bool)

  /** `handleAddClass`: a name that is blank after trimming raises an alert
      and nothing else; otherwise `addClass` gets the trimmed name, and the
      field is cleared and the form hidden. */
  function HandleAddClass(newClassName: string): (effects: seq<Effect>)
    ensures AllWhitespace(newClassName) ==> effects == [Alert("Error")]
    ensures !AllWhitespace(newClassName) ==>
              && |effects| == 3 && effects[0].CallAddClass?
              && effects[0].name == Trim(newClassName) && effects[0].name != ""
              && effects[1..] == [SetNewClassName(""), SetModalVisible(false)]
  {
    if Trim(newClassName) == "" then [Alert("Error")]
    else [CallAddClass(Trim(newClassName)), SetNewClassName(""), SetModalVisible(false)]
  }

  /** A name the form passes on is one the server accepts: `POST /classes`
      with it answers 201 for any signed-in user, and stores it unchanged. */
  lemma FormNameIsAccepted(newClassName: string, st: Store, userId: UserId)
    requires !AllWhitespace(newClassName)
    ensures var name := HandleAddClass(newClassName)[0].name;
            var h := Server.CreateClass(st, Server.Verified(userId), Some(name));
            && h.response.status == 201
            && h.store.classes[|st.classes|].name == name
  {
    TrimIdempotent(newClassName);
  }
}

=== FILE: edit_profile.dfy ===
/** The display-name editor (`EditProfileModal`): the field's reset on
    opening and what saving does. */
module EditProfileModal {
  import opened JsValues
  import opened Text
  import opened AppContext

  /** The effect on `[isVisible, currentName]`: an open modal shows the
      current name; a closed one keeps what the field holds. */
  function OnOpen(isVisible: bool, currentName: string, field: string): (r: string)
    ensures isVisible ==> r == currentName
    ensures !isVisible ==> r == field
  {
    if isVisible then currentName else field
  }

  /** Opening the modal and saving without an edit closes it without calling
      `onSave`, whatever state it was in, provided the current name is
      already trimmed. */
  lemma SaveUneditedCloses(currentName: string, field: string, saving: bool, outcome: Outcome)
    requires Trim(currentName) == currentName
    ensures HandleSave(OnOpen(true, currentName, field), currentName, saving, outcome) == [Close]
  {
  }

  /** What `handleSave` does, in order. */
  datatype Effect = Close | SetSaving(on: bool) | CallOnSave(name: string)

  /** The value of `isSaving` after the effects, starting from `initial`. */
  function SavingAfter(initial: bool, effects: seq<Effect>): bool {
    if |effects| == 0 then initial
    else if effects[|effects| - 1].SetSaving? then effects[|effects| - 1].on
    else SavingAfter(initial, effects[..|effects| - 1])
  }

  /** The name is worth sending: not blank, and not the current one. */
  predicate Changed(field: string, currentName: string) {
    Trim(field) != "" && Trim(field) != currentName
  }

  /** `handleSave` as written, given how `onSave` settles: an unchanged or
      blank name closes the modal without saving; otherwise `isSaving` is on
      while `onSave` gets the trimmed name, and the modal closes only on
      success. There is no `finally`: when `onSave` rejects, the rest of the
      handler never runs. */
  function HandleSave(field: string, currentName: string, saving: bool, outcome: Outcome): (effects: seq<Effect>)
    ensures !Changed(field, currentName) ==> effects == [Close]
    ensures Changed(field, currentName) ==>
              && |effects| >= 2
              && effects[..2] == [SetSaving(true), CallOnSave(Trim(field))]
              && (Close in effects <==> outcome == Returned(true))
    ensures outcome.Returned? ==> !SavingAfter(saving, effects) || (!Changed(field, currentName) && saving)
  {
    if !Changed(field, currentName) then
      assert [Close][..0] == [];
      [Close]
    else
      var started := [SetSaving(true), CallOnSave(Trim(field))];
      assert |started| == 2 && started[..2] == started && Close !in started;
      match outcome
      case Threw => started
      case Returned(success) => Settled(started, success)
  }

  /** The started effects, then `isSaving` off, then closing on success. */
  function Settled(started: seq<Effect>, success: bool): (effects: seq<Effect>)
    requires Close !in started
    ensures |effects| > |started| && effects[..|started|] == started
    ensures Close in effects <==> success
    ensures forall initial :: !SavingAfter(initial, effects)
  {
    var reset := started + [SetSaving(false)];
    assert reset[..|reset| - 1] == started;
    if success then
      var effects := reset + [Close];
      assert effects[..|effects| - 1] == reset;
      effects
    else reset
  }

  /** As written, an `onSave` that rejects leaves `isSaving` on, and with it
      both buttons disabled. */
  lemma SavingStuckWhenOnSaveRejects(field: string, currentName: string)
    requires Changed(field, currentName)
    ensures SavingAfter(false, HandleSave(field, currentName, false, Threw))
  {
    assert HandleSave(field, currentName, false, Threw) == [SetSaving(true), CallOnSave(Trim(field))];
    SavingDuringCall(Trim(field));
  }

  /** While `onSave` is pending, `isSaving` is on. */
  lemma SavingDuringCall(name: string)
    ensures SavingAfter(false, [SetSaving(true), CallOnSave(name)])
  {
    var effects := [SetSaving(true), CallOnSave(name)];
    assert effects[..1] == [SetSaving(true)];
  }

  /** `handleSave` with the reset of `isSaving` in a `finally`: the same
      decisions, and `isSaving` ends off however `onSave` settles. */
  function HandleSaveGuarded(field: string, currentName: string, outcome: Outcome): (effects: seq<Effect>)
    ensures !Changed(field, currentName) ==> effects == [Close]
    ensures Changed(field, currentName) ==>
              && |effects| >= 2
              && effects[..2] == [SetSaving(true), CallOnSave(Trim(field))]
              && (Close in effects <==> outcome == Returned(true))
    ensures !SavingAfter(false, effects)
  {
    if !Changed(field, currentName) then [Close]
    else
      Settled([SetSaving(true), CallOnSave(Trim(field))], outcome == Returned(true))
  }

  /** The guarded handler does what the written one does whenever `onSave`
      resolves. */
  lemma GuardedAgreesOnResolve(field: string, currentName: string, success: bool)
    ensures HandleSaveGuarded(field, currentName, Returned(success))
         == HandleSave(field, currentName, false, Returned(success))
  {
  }

  /** The name sent is the trimmed field: never blank and never the current
      name, and trimming it again changes nothing. */
  lemma SentNameIsClean(field: string, currentName: string)
    requires Changed(field, currentName)
    ensures var name := HandleSaveGuarded(field, currentName, Threw)[1].name;
            && name != "" && name != currentName && Trim(name) == name
  {
    var effects := HandleSaveGuarded(field, currentName, Threw);
    assert effects[1] == effects[..2][1] == CallOnSave(Trim(field));
    TrimIdempotent(field);
  }
}

=== FILE: js_values.dfy ===
/** Values as the JavaScript side of the system sees them: optional fields,
    JS "truthiness" of string fields, and plain objects used as dictionaries. */
module JsValues {

  /** A value that may be absent (`undefined` or `null` in the source). */
  datatype Option<T> = None | Some(value: T) {
    /** `x || d` for a field whose present values are all truthy (arrays, objects). */
    function GetOr(default: T): T {
      match this
      case Some(v) => v
      case None => default
    }
  }

  /** `!!f` for a string field of a request body or a form: a missing value and
      the empty string are falsy, every other string is truthy. */
  predicate Truthy(f: Option<string>) {
    f.Some? && f.value != ""
  }

  /** The keys of a plain JS object are pairwise distinct. */
  predicate DistinctKeys<K(==), V>(es: seq<(K, V)>) {
    forall i, j :: 0 <= i < j < |es| ==> es[i].0 != es[j].0
  }

  /** A plain JS object `{ key: value, ... }`: its entries in enumeration order
      (`Object.entries`), each key at most once. */
  type Dict<K(==), V> = es: seq<(K, V)> | DistinctKeys(es) witness []

  /** The keys of an object, as a set. */
  function KeySet<K(==), V>(d: seq<(K, V)>): (ks: set<K>)
    ensures forall i :: 0 <= i < |d| ==> d[i].0 in ks
  {
    if |d| == 0 then {} else {d[0].0} + KeySet(d[1..])
  }

  /** A key that no entry carries is not a key of the object. */
  lemma NotInKeySet<K, V>(d: seq<(K, V)>, k: K)
    requires forall i :: 0 <= i < |d| ==> d[i].0 != k
    ensures k !in KeySet(d)
  {
    if |d| > 0 {
      NotInKeySet(d[1..], k);
    }
  }

  /** `obj[k]`: the value stored under `k`, or `None` when `k` is not a key. */
  function Lookup<K(==), V>(d: Dict<K, V>, k: K): (r: Option<V>)
    ensures r.None? <==> k !in KeySet(d)
    ensures forall i :: 0 <= i < |d| && d[i].0 == k ==> r == Some(d[i].1)
  {
    if |d| == 0 then None
    else if d[0].0 == k then Some(d[0].1)
    else
      assert DistinctKeys(d[1..]);
      Lookup(d[1..], k)
  }

  /** `{ ...obj, [k]: v }` and `obj[k] = v`: an existing key keeps its place and
      takes the new value; a new key is appended at the end. */
  function Put<K(==,!new), V>(d: Dict<K, V>, k: K, v: V): (r: Dict<K, V>)
    ensures KeySet(r) == KeySet(d) + {k}
    ensures Lookup(r, k) == Some(v)
    ensures forall j :: j != k ==> Lookup(r, j) == Lookup(d, j)
    ensures |r| == if k in KeySet(d) then |d| else |d| + 1
    ensures k in KeySet(d) ==> forall i :: 0 <= i < |d| ==> r[i].0 == d[i].0
    ensures k !in KeySet(d) ==> r == d + [(k, v)]
  {
    if |d| == 0 then [(k, v)]
    else if d[0].0 == k then
      var r := [(k, v)] + d[1..];
      assert r[1..] == d[1..];
      r
    else
      assert DistinctKeys(d[1..]);
      var rest := Put(d[1..], k, v);
      NotInKeySet(d[1..], d[0].0);
      var r := [d[0]] + rest;
      assert r[1..] == rest;
      assert k !in KeySet(d) ==> r == d + [(k, v)] by {
        if k !in KeySet(d) {
          assert d == [d[0]] + d[1..];
        }
      }
      assert DistinctKeys(r) by {
        forall i, j | 0 <= i < j < |r| ensures r[i].0 != r[j].0 {
          if i == 0 {
            assert r[j].0 in KeySet(rest);
          }
        }
      }
      r
  }

  /** Writing the value a key already holds changes nothing. */
  lemma {:induction false} PutSame<K(!new), V>(d: Dict<K, V>, k: K, v: V)
    requires Lookup(d, k) == Some(v)
    ensures Put(d, k, v) == d
  {
    if d[0].0 != k {
      assert DistinctKeys(d[1..]);
      PutSame(d[1..], k, v);
    }
  }

  /** A second write to the same key overrides the first. */
  lemma {:induction false} PutPut<K(!new), V>(d: Dict<K, V>, k: K, v: V, w: V)
    ensures Put(Put(d, k, v), k, w) == Put(d, k, w)
  {
    if |d| > 0 && d[0].0 != k {
      assert DistinctKeys(d[1..]);
      PutPut(d[1..], k, v, w);
    }
  }

  /** An object has as many entries as distinct keys. */
  lemma {:induction false} KeyCount<K, V>(d: Dict<K, V>)
    ensures |KeySet(d)| == |d|
  {
    if |d| > 0 {
      assert DistinctKeys(d[1..]);
      KeyCount(d[1..]);
      NotInKeySet(d[1..], d[0].0);
    }
  }
}

=== FILE: ledger.dfy ===
/** The four relations of the server's database (users, classes, students,
    attendance) as in-memory tables, each SQL statement the handlers issue as
    the equivalent sequence operation, and the integrity the handlers keep. */
module Ledger {
  import opened Text
  import opened JsValues

  type UserId = int
  type ClassId = int
  type StudentId = int
  /** A calendar day as the client sends it, e.g. "2025-01-01". */
  type Date = string

  datatype User = User(id: UserId, name: string, email: string, password: string, displayName: string)
  datatype ClassRow = ClassRow(id: ClassId, userId: UserId, name: string)
  datatype StudentRow = StudentRow(id: StudentId, classId: ClassId, name: string, registrationNumber: string)
  datatype AttendanceRow = AttendanceRow(classId: ClassId, studentId: StudentId, date: Date, present: bool)

  /** The database. Each table lists its rows in insertion order; the three
      counters are the AUTO_INCREMENT values the next insert receives. */
  datatype Store = Store(
    users: seq<User>,
    classes: seq<ClassRow>,
    students: seq<StudentRow>,
    attendance: seq<AttendanceRow>,
    nextUserId: UserId,
    nextClassId: ClassId,
    nextStudentId: StudentId)

  /** An empty database whose ids start at 1. */
  const Empty := Store([], [], [], [], 1, 1, 1)

  /** `SELECT * FROM t WHERE p` and, with the negated condition, `DELETE FROM t WHERE p`. */
  function Filter<T>(s: seq<T>, p: T -> bool): (r: seq<T>)
    ensures |r| <= |s|
    ensures forall i :: 0 <= i < |r| ==> p(r[i]) && r[i] in s
    ensures forall i :: 0 <= i < |s| && p(s[i]) ==> s[i] in r
  {
    if |s| == 0 then []
    else if p(s[0]) then [s[0]] + Filter(s[1..], p)
    else Filter(s[1..], p)
  }

  /** Selecting from a concatenation selects from each part. */
  lemma {:induction false} FilterAppend<T>(a: seq<T>, b: seq<T>, p: T -> bool)
    ensures Filter(a + b, p) == Filter(a, p) + Filter(b, p)
  {
    if |a| == 0 {
      assert a + b == b;
    } else {
      assert (a + b)[1..] == a[1..] + b;
      FilterAppend(a[1..], b, p);
    }
  }

  /** Two conditions that agree on every row select the same rows. */
  lemma {:induction false} FilterCongruent<T>(s: seq<T>, p: T -> bool, q: T -> bool)
    requires forall i :: 0 <= i < |s| ==> p(s[i]) == q(s[i])
    ensures Filter(s, p) == Filter(s, q)
  {
    if |s| > 0 {
      FilterCongruent(s[1..], p, q);
    }
  }

  /** The conjunction of two row conditions. */
  function Both<T>(p: T -> bool, q: T -> bool): T -> bool {
    x => p(x) && q(x)
  }

  /** No row meets the condition: nothing is selected. */
  lemma {:induction false} FilterNone<T>(s: seq<T>, p: T -> bool)
    requires forall i :: 0 <= i < |s| ==> !p(s[i])
    ensures Filter(s, p) == []
  {
    if |s| > 0 {
      FilterNone(s[1..], p);
    }
  }

  /** Every row meets the condition: everything is selected. */
  lemma {:induction false} FilterAll<T>(s: seq<T>, p: T -> bool)
    requires forall i :: 0 <= i < |s| ==> p(s[i])
    ensures Filter(s, p) == s
  {
    if |s| > 0 {
      FilterAll(s[1..], p);
    }
  }

  /** Selecting twice selects the rows that meet both conditions. */
  lemma {:induction false} FilterFilter<T>(s: seq<T>, p: T -> bool, q: T -> bool)
    ensures Filter(Filter(s, p), q) == Filter(s, Both(p, q))
  {
    if |s| > 0 {
      FilterFilter(s[1..], p, q);
      if p(s[0]) {
        assert Filter(s, p) == [s[0]] + Filter(s[1..], p);
        assert Filter(s, p)[1..] == Filter(s[1..], p);
      }
    }
  }

  /** Every ordered pair of rows (earlier, later) is related by `rel`. */
  ghost predicate Pairwise<T>(s: seq<T>, rel: (T, T) -> bool) {
    forall i, j :: 0 <= i < j < |s| ==> rel(s[i], s[j])
  }

  /** Deleting rows keeps a pairwise property: the survivors keep their order. */
  lemma {:induction false} FilterPairwise<T>(s: seq<T>, p: T -> bool, rel: (T, T) -> bool)
    requires Pairwise(s, rel)
    ensures Pairwise(Filter(s, p), rel)
  {
    if |s| > 0 {
      assert Pairwise(s[1..], rel);
      FilterPairwise(s[1..], p, rel);
      if p(s[0]) {
        var f := Filter(s, p);
        var rest := Filter(s[1..], p);
        assert f == [s[0]] + rest;
        forall i, j | 0 <= i < j < |f| ensures rel(f[i], f[j]) {
          if i == 0 {
            assert f[j] == rest[j - 1];
            assert rest[j - 1] in s[1..];
            var m :| 0 <= m < |s[1..]| && s[1..][m] == rest[j - 1];
            assert s[m + 1] == f[j];
          } else {
            assert f[i] == rest[i - 1] && f[j] == rest[j - 1];
          }
        }
      }
    }
  }

  /** Appending rows keeps a pairwise property when every old row relates to
      every new one. */
  lemma AppendPairwise<T>(a: seq<T>, b: seq<T>, rel: (T, T) -> bool)
    requires Pairwise(a, rel) && Pairwise(b, rel)
    requires forall i, j :: 0 <= i < |a| && 0 <= j < |b| ==> rel(a[i], b[j])
    ensures Pairwise(a + b, rel)
  {
    forall i, j | 0 <= i < j < |a + b| ensures rel((a + b)[i], (a + b)[j]) {
      if j < |a| {
      } else if i < |a| {
        assert (a + b)[j] == b[j - |a|];
      } else {
        assert (a + b)[i] == b[i - |a|] && (a + b)[j] == b[j - |a|];
      }
    }
  }

  // ---- Integrity of the database ----

  /** The key that identifies one attendance mark. */
  function MarkKey(a: AttendanceRow): (ClassId, StudentId, Date) {
    (a.classId, a.studentId, a.date)
  }

  /** Users are listed by increasing id and no two share an e-mail. */
  predicate UserOrder(u: User, v: User) {
    u.id < v.id && u.email != v.email
  }

  predicate ClassOrder(c: ClassRow, d: ClassRow) {
    c.id < d.id
  }

  predicate StudentOrder(s: StudentRow, t: StudentRow) {
    s.id < t.id
  }

  /** Two marks are for different (class, student, date) keys. */
  predicate DistinctMarks(a: AttendanceRow, b: AttendanceRow) {
    MarkKey(a) != MarkKey(b)
  }

  ghost predicate UsersValid(users: seq<User>, next: UserId) {
    && Pairwise(users, UserOrder)
    && (forall i :: 0 <= i < |users| ==> users[i].id < next && IsLower(users[i].email))
  }

  ghost predicate ClassesValid(classes: seq<ClassRow>, next: ClassId) {
    && Pairwise(classes, ClassOrder)
    && (forall i :: 0 <= i < |classes| ==> classes[i].id < next)
  }

  ghost predicate StudentsValid(students: seq<StudentRow>, next: StudentId) {
    && Pairwise(students, StudentOrder)
    && (forall i :: 0 <= i < |students| ==> students[i].id < next)
  }

  /** At most one attendance mark per (class, student, date). */
  ghost predicate AttendanceValid(attendance: seq<AttendanceRow>) {
    Pairwise(attendance, DistinctMarks)
  }

  /** Students and marks only mention class ids that have been handed out. */
  ghost predicate ClassRefsIssued(st: Store) {
    && (forall i :: 0 <= i < |st.students| ==> st.students[i].classId < st.nextClassId)
    && (forall i :: 0 <= i < |st.attendance| ==> st.attendance[i].classId < st.nextClassId)
  }

  /** The integrity the handlers maintain: ids are unique and below the next
      AUTO_INCREMENT value, e-mails are stored lower-cased and unique, no
      attendance mark is stored twice, and no row mentions a class id that
      was never issued. */
  ghost predicate Valid(st: Store) {
    && UsersValid(st.users, st.nextUserId)
    && ClassesValid(st.classes, st.nextClassId)
    && StudentsValid(st.students, st.nextStudentId)
    && AttendanceValid(st.attendance)
    && ClassRefsIssued(st)
  }

  lemma EmptyValid()
    ensures Valid(Empty)
  {
  }

  // ---- Queries ----

  /** `WHERE classId = c` on the students table. */
  function StudentInClass(c: ClassId): StudentRow -> bool {
    (s: StudentRow) => s.classId == c
  }

  /** `WHERE classId = c` on the attendance table. */
  function MarkInClass(c: ClassId): AttendanceRow -> bool {
    (a: AttendanceRow) => a.classId == c
  }

  /** `SELECT ... FROM users WHERE ...`: the first user meeting the condition. */
  function FirstUser(users: seq<User>, p: User -> bool): (r: Option<User>)
    ensures r.Some? ==> exists k :: 0 <= k < |users| && users[k] == r.value && p(users[k])
                                   && forall j :: 0 <= j < k ==> !p(users[j])
    ensures r.None? <==> forall i :: 0 <= i < |users| ==> !p(users[i])
  {
    if |users| == 0 then None
    else if p(users[0]) then Some(users[0])
    else
      var r := FirstUser(users[1..], p);
      if r.Some? then
        var k :| 0 <= k < |users[1..]| && users[1..][k] == r.value && p(users[1..][k])
                  && forall j :: 0 <= j < k ==> !p(users[1..][j]);
        assert users[k + 1] == r.value;
        assert forall j :: 1 <= j < k + 1 ==> users[j] == users[1..][j - 1];
        r
      else r
  }

  /** `WHERE email = ?` on the users table. */
  function HasEmail(email: string): User -> bool {
    (u: User) => u.email == email
  }

  /** `WHERE id = ?` on the users table. */
  function HasId(id: UserId): User -> bool {
    (u: User) => u.id == id
  }

  /** The user a login or registration looks up by e-mail. */
  function UserByEmail(users: seq<User>, email: string): (r: Option<User>)
    ensures r.Some? ==> r.value in users && r.value.email == email
    ensures r.None? <==> forall i :: 0 <= i < |users| ==> users[i].email != email
  {
    FirstUser(users, HasEmail(email))
  }

  /** The user a signed-in request looks up by the token's id. */
  function UserById(users: seq<User>, id: UserId): (r: Option<User>)
    ensures r.Some? ==> r.value in users && r.value.id == id
    ensures r.None? <==> forall i :: 0 <= i < |users| ==> users[i].id != id
  {
    FirstUser(users, HasId(id))
  }

  /** `SELECT id FROM classes WHERE id = ? AND userId = ?` is non-empty. */
  predicate Owns(classes: seq<ClassRow>, classId: ClassId, userId: UserId) {
    exists i :: 0 <= i < |classes| && classes[i].id == classId && classes[i].userId == userId
  }
}

=== FILE: server.dfy ===
/** The request handlers of the Express API, each a transition from the
    database before the request to the response and the database after it.
    The bearer token arrives already checked (`Auth`); request fields arrive
    as optional strings, and path parameters as the result of `parseInt`
    (`None` for `NaN`). The driver writes a `NaN` into the SQL text as the
    bare word `NaN`, which MySQL rejects as an unknown column: a query that
    carries one fails, writes nothing, and the handler's catch answers 500. */
module Server {
  import opened JsValues
  import opened Text
  import opened Ledger
  import opened Stats

  /** What `jwt.verify` made of the Authorization header. */
  datatype Auth = NoToken | BadToken | Verified(userId: UserId)

  /** The claims a signed token carries; signing itself is not modelled. */
  datatype Claims = Claims(userId: UserId, name: string, email: string)

  datatype Body =
    | Message(text: string)
    | Registered(token: Claims)
    | LoggedIn(token: Claims, displayName: string)
    | Snapshot(classes: seq<ClassSummary>, students: map<ClassId, seq<StudentRow>>,
               attendance: map<ClassId, seq<AttendanceRow>>, displayName: string, userId: UserId)
    | ClassCreated(newClass: ClassSummary)

  datatype Response = Response(status: int, body: Body)

  /** A handled request: the response sent and the database afterwards. */
  datatype Handled = Handled(response: Response, store: Store)

  /** An attendance submission: student id to present, as a JS object. */
  type Records = Dict<StudentId, bool>

  /** `authenticateToken` turning a request away: no token is 401, a token
      that fails verification is 403, and nothing is written. */
  function Refuse(auth: Auth, st: Store): (h: Handled)
    requires !auth.Verified?
    ensures h.store == st
    ensures h.response.status == if auth.NoToken? then 401 else 403
  {
    if auth.NoToken? then Handled(Response(401, Message("Unauthorized")), st)
    else Handled(Response(403, Message("Forbidden")), st)
  }

  // ---- Users ----

  /** The row a successful registration adds. */
  function NewUser(st: Store, name: string, email: string, password: string, displayName: string): User {
    User(st.nextUserId, name, ToLower(email), password, displayName)
  }

  /** `POST /register`. */
  function Register(st: Store, name: Option<string>, email: Option<string>,
                    password: Option<string>, displayName: Option<string>): (h: Handled)
    ensures h.response.status in {201, 400, 409}
    ensures h.response.status == 400 <==>
              !(Truthy(name) && Truthy(email) && Truthy(password) && Truthy(displayName))
    ensures h.response.status == 409 <==>
              && Truthy(name) && Truthy(email) && Truthy(password) && Truthy(displayName)
              && exists i :: 0 <= i < |st.users| && st.users[i].email == ToLower(email.value)
    ensures h.response.status != 201 ==> h.store == st
    ensures h.response.status == 201 ==>
              && h.store == st.(users := st.users + [NewUser(st, name.value, email.value, password.value, displayName.value)],
                                nextUserId := st.nextUserId + 1)
              && IsLower(h.store.users[|st.users|].email)
              && h.response.body == Registered(Claims(st.nextUserId, name.value, ToLower(email.value)))
  {
    if !(Truthy(name) && Truthy(email) && Truthy(password) && Truthy(displayName)) then
      Handled(Response(400, Message("All fields are required.")), st)
    else if UserByEmail(st.users, ToLower(email.value)).Some? then
      Handled(Response(409, Message("User with this email already exists.")), st)
    else
      var u := NewUser(st, name.value, email.value, password.value, displayName.value);
      ToLowerIsLower(email.value);
      Handled(Response(201, Registered(Claims(u.id, u.name, u.email))),
              st.(users := st.users + [u], nextUserId := st.nextUserId + 1))
  }

  /** `POST /login`: never writes. The first user stored under the
      lower-cased e-mail must have exactly the supplied password. */
  function Login(st: Store, email: Option<string>, password: Option<string>): (h: Handled)
    ensures h.store == st
    ensures h.response.status in {200, 400, 401}
    ensures h.response.status == 400 <==> !(Truthy(email) && Truthy(password))
    ensures h.response.status == 200 <==>
              && Truthy(email) && Truthy(password)
              && UserByEmail(st.users, ToLower(email.value)).Some?
              && UserByEmail(st.users, ToLower(email.value)).value.password == password.value
    ensures h.response.status == 200 ==>
              var u := UserByEmail(st.users, ToLower(email.value)).value;
              h.response.body == LoggedIn(Claims(u.id, u.name, u.email), u.displayName)
  {
    if !(Truthy(email) && Truthy(password)) then
      Handled(Response(400, Message("Email and password are required.")), st)
    else
      var found := UserByEmail(st.users, ToLower(email.value));
      if found.None? || found.value.password != password.value then
        Handled(Response(401, Message("Invalid email or password.")), st)
      else
        var u := found.value;
        Handled(Response(200, LoggedIn(Claims(u.id, u.name, u.email), u.displayName)), st)
  }

  /** `UPDATE users SET password = ? WHERE id = ?`: the rows keep their
      order and every field but the password; the rows with that id get the
      new password and the others are untouched. */
  function SetPassword(users: seq<User>, id: UserId, password: string): (r: seq<User>)
    ensures |r| == |users|
    ensures forall i :: 0 <= i < |users| ==>
              && r[i].id == users[i].id && r[i].name == users[i].name
              && r[i].email == users[i].email && r[i].displayName == users[i].displayName
    ensures forall i :: 0 <= i < |users| && users[i].id == id ==> r[i].password == password
    ensures forall i :: 0 <= i < |users| && users[i].id != id ==> r[i] == users[i]
  {
    seq(|users|, i requires 0 <= i < |users| => Rewritten(users[i], id, password))
  }

  /** After the update, looking the user up finds it with the new password,
      and looking up anyone else finds what was there before. */
  lemma SetPasswordLookups(users: seq<User>, id: UserId, password: string)
    ensures UserById(users, id).Some? ==>
              UserById(SetPassword(users, id, password), id) == Some(UserById(users, id).value.(password := password))
    ensures forall j :: j != id ==> UserById(SetPassword(users, id, password), j) == UserById(users, j)
  {
    var r := SetPassword(users, id, password);
    LookupAfterRewrite(users, r, id, password, id);
    forall j | j != id ensures UserById(r, j) == UserById(users, j) {
      LookupAfterRewrite(users, r, id, password, j);
    }
  }

  /** The row the update leaves in place of `u`. */
  function Rewritten(u: User, id: UserId, password: string): User {
    if u.id == id then u.(password := password) else u
  }

  /** Looking `j` up in rows rewritten one by one. */
  lemma {:induction false} LookupAfterRewrite(users: seq<User>, r: seq<User>, id: UserId, password: string, j: UserId)
    requires |r| == |users|
    requires forall i :: 0 <= i < |users| ==> r[i] == Rewritten(users[i], id, password)
    ensures UserById(r, j)
              == if j == id && UserById(users, j).Some? then Some(UserById(users, j).value.(password := password))
                 else UserById(users, j)
  {
    if |users| > 0 {
      assert forall i :: 0 <= i < |users| - 1 ==> r[1..][i] == Rewritten(users[1..][i], id, password);
      LookupAfterRewrite(users[1..], r[1..], id, password, j);
      assert UserById(r, j) == if r[0].id == j then Some(r[0]) else UserById(r[1..], j);
      assert UserById(users, j) == if users[0].id == j then Some(users[0]) else UserById(users[1..], j);
    }
  }

  /** `POST /change-password`. */
  function ChangePassword(st: Store, auth: Auth, current: Option<string>, replacement: Option<string>): (h: Handled)
    ensures !auth.Verified? ==> h == Refuse(auth, st)
    ensures auth.Verified? ==> h.response.status in {200, 400, 403, 404}
    ensures auth.Verified? ==>
              (h.response.status == 400 <==> !(Truthy(current) && Truthy(replacement)))
    ensures auth.Verified? && Truthy(current) && Truthy(replacement) ==>
              (h.response.status == 404 <==> UserById(st.users, auth.userId).None?)
    ensures auth.Verified? && Truthy(current) && Truthy(replacement) && UserById(st.users, auth.userId).Some? ==>
              && h.response.status in {200, 403}
              && (h.response.status == 200 <==> UserById(st.users, auth.userId).value.password == current.value)
    ensures h.response.status != 200 ==> h.store == st
    ensures h.response.status == 200 ==>
              && auth.Verified? && Truthy(replacement)
              && UserById(st.users, auth.userId).Some?
              && UserById(st.users, auth.userId).value.password == current.value
              && h.store == st.(users := SetPassword(st.users, auth.userId, replacement.value))
  {
    if !auth.Verified? then Refuse(auth, st)
    else if !(Truthy(current) && Truthy(replacement)) then
      Handled(Response(400, Message("Current and new passwords are required.")), st)
    else
      var found := UserById(st.users, auth.userId);
      if found.None? then Handled(Response(404, Message("User not found.")), st)
      else if found.value.password != current.value then
        Handled(Response(403, Message("Incorrect current password.")), st)
      else
        Handled(Response(200, Message("Password updated successfully.")),
                st.(users := SetPassword(st.users, auth.userId, replacement.value)))
  }

  // ---- The snapshot ----

  /** `WHERE c.userId = ?`. */
  function OwnedBy(uid: UserId): ClassRow -> bool {
    (c: ClassRow) => c.userId == uid
  }

  function ClassIds(classes: seq<ClassRow>): (ids: set<ClassId>)
    ensures forall i :: 0 <= i < |classes| ==> classes[i].id in ids
    ensures forall id :: id in ids ==> exists i :: 0 <= i < |classes| && classes[i].id == id
  {
    set i | 0 <= i < |classes| :: classes[i].id
  }

  /** `WHERE classId IN (?)` on the students table. */
  function StudentInAny(ids: set<ClassId>): StudentRow -> bool {
    (s: StudentRow) => s.classId in ids
  }

  /** `WHERE classId IN (?)` on the attendance table. */
  function MarkInAny(ids: set<ClassId>): AttendanceRow -> bool {
    (a: AttendanceRow) => a.classId in ids
  }

  /** The student rows of the second query, split by class as the handler's
      `forEach` does. */
  function StudentsByClass(st: Store, ids: set<ClassId>): (m: map<ClassId, seq<StudentRow>>)
    ensures m.Keys == ids
    ensures forall id :: id in ids ==> m[id] == StudentsOf(st.students, id)
  {
    var fetched := Filter(st.students, StudentInAny(ids));
    var m := map id | id in ids :: Filter(fetched, StudentInClass(id));
    assert forall id :: id in ids ==> m[id] == StudentsOf(st.students, id) by {
      forall id | id in ids ensures m[id] == StudentsOf(st.students, id) {
        FilterFilter(st.students, StudentInAny(ids), StudentInClass(id));
        FilterCongruent(st.students, Both(StudentInAny(ids), StudentInClass(id)), StudentInClass(id));
      }
    }
    m
  }

  /** The attendance rows of the third query, split by class. */
  function MarksByClass(st: Store, ids: set<ClassId>): (m: map<ClassId, seq<AttendanceRow>>)
    ensures m.Keys == ids
    ensures forall id :: id in ids ==> m[id] == MarksOf(st.attendance, id)
  {
    var fetched := Filter(st.attendance, MarkInAny(ids));
    var m := map id | id in ids :: Filter(fetched, MarkInClass(id));
    assert forall id :: id in ids ==> m[id] == MarksOf(st.attendance, id) by {
      forall id | id in ids ensures m[id] == MarksOf(st.attendance, id) {
        FilterFilter(st.attendance, MarkInAny(ids), MarkInClass(id));
        FilterCongruent(st.attendance, Both(MarkInAny(ids), MarkInClass(id)), MarkInClass(id));
      }
    }
    m
  }

  /** The rows of the grouped class query, one per class in table order. */
  function Summaries(classes: seq<ClassRow>, st: Store): (rows: seq<ClassSummary>)
    ensures |rows| == |classes|
    ensures forall i :: 0 <= i < |classes| ==>
              && rows[i].id == classes[i].id
              && rows[i].userId == classes[i].userId
              && rows[i].name == classes[i].name
              && rows[i].students == |StudentIds(StudentsOf(st.students, classes[i].id))|
              && rows[i].attendanceRate == Rate(MarksOf(st.attendance, classes[i].id))
  {
    seq(|classes|, i requires 0 <= i < |classes| => Summarise(classes[i], st.students, st.attendance))
  }

  /** `GET /data`: never writes. It returns the caller's classes, each with
      its distinct-student count and attendance rate, and for each of them
      exactly the students and marks recorded under that class id. */
  function GetData(st: Store, auth: Auth): (h: Handled)
    ensures h.store == st
    ensures !auth.Verified? ==> h == Refuse(auth, st)
    ensures auth.Verified? ==> h.response.status == 200 && h.response.body.Snapshot?
    ensures auth.Verified? ==>
              var owned := Filter(st.classes, OwnedBy(auth.userId));
              var snap := h.response.body;
              && |snap.classes| == |owned|
              && (forall i :: 0 <= i < |owned| ==>
                    && snap.classes[i].id == owned[i].id
                    && snap.classes[i].userId == auth.userId
                    && snap.classes[i].name == owned[i].name
                    && snap.classes[i].students == |StudentIds(StudentsOf(st.students, owned[i].id))|
                    && snap.classes[i].attendanceRate == Rate(MarksOf(st.attendance, owned[i].id)))
              && snap.students.Keys == ClassIds(owned) && snap.attendance.Keys == ClassIds(owned)
              && (forall id :: id in snap.students ==> snap.students[id] == StudentsOf(st.students, id))
              && (forall id :: id in snap.attendance ==> snap.attendance[id] == MarksOf(st.attendance, id))
              && snap.displayName ==
                   (if UserById(st.users, auth.userId).Some? then UserById(st.users, auth.userId).value.displayName
                    else "Instructor")
  {
    if !auth.Verified? then Refuse(auth, st)
    else
      var uid := auth.userId;
      var found := UserById(st.users, uid);
      var displayName := if found.Some? then found.value.displayName else "Instructor";
      var owned := Filter(st.classes, OwnedBy(uid));
      var summaries := Summaries(owned, st);
      var ids := ClassIds(owned);
      var students := if |owned| > 0 then StudentsByClass(st, ids) else map[];
      var attendance := if |owned| > 0 then MarksByClass(st, ids) else map[];
      assert |owned| == 0 ==> ids == {};
      Handled(Response(200, Snapshot(summaries, students, attendance, displayName, uid)), st)
  }

  // ---- Classes ----

  /** `POST /classes`. */
  function CreateClass(st: Store, auth: Auth, name: Option<string>): (h: Handled)
    ensures !auth.Verified? ==> h == Refuse(auth, st)
    ensures auth.Verified? ==> h.response.status in {201, 400}
    ensures auth.Verified? ==>
              (h.response.status == 400 <==> !Truthy(name) || Trim(name.value) == "")
    ensures h.response.status != 201 ==> h.store == st
    ensures h.response.status == 201 ==>
              var row := ClassRow(st.nextClassId, auth.userId, Trim(name.value));
              && h.store == st.(classes := st.classes + [row], nextClassId := st.nextClassId + 1)
              && row.name != "" && Trimmed(row.name)
              && h.response.body == ClassCreated(ClassSummary(row.id, row.userId, row.name, 0, 0.0))
  {
    if !auth.Verified? then Refuse(auth, st)
    else if !Truthy(name) || Trim(name.value) == "" then
      Handled(Response(400, Message("Class name is required.")), st)
    else
      var row := ClassRow(st.nextClassId, auth.userId, Trim(name.value));
      Handled(Response(201, ClassCreated(ClassSummary(row.id, row.userId, row.name, 0, 0.0))),
              st.(classes := st.classes + [row], nextClassId := st.nextClassId + 1))
  }

  /** The rows `DELETE FROM classes WHERE id = ? AND userId = ?` keeps. */
  function KeepClass(classId: ClassId, uid: UserId): ClassRow -> bool {
    (c: ClassRow) => !(c.id == classId && c.userId == uid)
  }

  /** `DELETE /classes/:classId`: removes only the caller's class with that
      id, answers success whether or not a row matched, and touches no other
      table; a class id that is not a number fails the query. */
  function DeleteClass(st: Store, auth: Auth, classId: Option<ClassId>): (h: Handled)
    ensures !auth.Verified? ==> h == Refuse(auth, st)
    ensures auth.Verified? ==> h.response.status in {200, 500}
    ensures auth.Verified? ==> (h.response.status == 500 <==> classId.None?)
    ensures h.response.status != 200 ==> h.store == st
    ensures h.response.status == 200 ==>
              && auth.Verified? && classId.Some?
              && h.store == st.(classes := Filter(st.classes, KeepClass(classId.value, auth.userId)))
              && (forall c :: c in h.store.classes <==>
                    c in st.classes && !(c.id == classId.value && c.userId == auth.userId))
  {
    if !auth.Verified? then Refuse(auth, st)
    else if classId.None? then
      Handled(Response(500, Message("Database error while deleting class.")), st)
    else
      var kept := Filter(st.classes, KeepClass(classId.value, auth.userId));
      Handled(Response(200, Message("Class deleted successfully")), st.(classes := kept))
  }

  // ---- Students ----

  /** `POST /classes/:classId/students`, as written: the fields are checked
      for presence before they are trimmed. */
  function EnrollStudent(st: Store, auth: Auth, classId: Option<ClassId>,
                         name: Option<string>, registrationNumber: Option<string>): (h: Handled)
    ensures !auth.Verified? ==> h == Refuse(auth, st)
    ensures auth.Verified? ==> h.response.status in {201, 400, 404, 500}
    ensures auth.Verified? ==>
              (h.response.status == 400 <==> !(Truthy(name) && Truthy(registrationNumber)))
    ensures auth.Verified? && Truthy(name) && Truthy(registrationNumber) ==>
              (h.response.status == 500 <==> classId.None?)
    ensures auth.Verified? && Truthy(name) && Truthy(registrationNumber) && classId.Some? ==>
              (h.response.status == 404 <==> !Owns(st.classes, classId.value, auth.userId))
    ensures h.response.status != 201 ==> h.store == st
    ensures h.response.status == 201 ==>
              && auth.Verified? && classId.Some? && Owns(st.classes, classId.value, auth.userId)
              && h.store == st.(students := st.students + [StudentRow(st.nextStudentId, classId.value,
                                                           Trim(name.value), Trim(registrationNumber.value))],
                                nextStudentId := st.nextStudentId + 1)
  {
    if !auth.Verified? then Refuse(auth, st)
    else if !(Truthy(name) && Truthy(registrationNumber)) then
      Handled(Response(400, Message("Name and registration number are required.")), st)
    else if classId.None? then
      Handled(Response(500, Message("Database error while enrolling student.")), st)
    else if !Owns(st.classes, classId.value, auth.userId) then
      Handled(Response(404, Message("Class not found or unauthorized.")), st)
    else
      var row := StudentRow(st.nextStudentId, classId.value, Trim(name.value), Trim(registrationNumber.value));
      Handled(Response(201, Message("Student enrolled successfully")),
              st.(students := st.students + [row], nextStudentId := st.nextStudentId + 1))
  }

  /** A non-blank field: present and not empty once trimmed. */
  predicate Filled(f: Option<string>) {
    Truthy(f) && Trim(f.value) != ""
  }

  /** `POST /classes/:classId/students` with the check the class handler
      already makes: a field that trims to nothing is missing. */
  function EnrollStudentChecked(st: Store, auth: Auth, classId: Option<ClassId>,
                                name: Option<string>, registrationNumber: Option<string>): (h: Handled)
    ensures !auth.Verified? ==> h == Refuse(auth, st)
    ensures auth.Verified? ==>
              (h.response.status == 400 <==> !(Filled(name) && Filled(registrationNumber)))
    ensures h.response.status != 201 ==> h.store == st
    ensures h.response.status == 201 ==>
              && |h.store.students| == |st.students| + 1
              && h.store.students[..|st.students|] == st.students
              && var row := h.store.students[|st.students|];
                 row.name != "" && Trimmed(row.name)
                 && row.registrationNumber != "" && Trimmed(row.registrationNumber)
  {
    if auth.Verified? && !(Filled(name) && Filled(registrationNumber)) then
      Handled(Response(400, Message("Name and registration number are required.")), st)
    else
      EnrollStudent(st, auth, classId, name, registrationNumber)
  }

  /** The rows `DELETE FROM students WHERE id = ? AND classId = ?` keeps. */
  function KeepStudent(classId: ClassId, studentId: StudentId): StudentRow -> bool {
    (s: StudentRow) => !(s.id == studentId && s.classId == classId)
  }

  /** `DELETE /classes/:classId/students/:studentId`: after the ownership
      check, removes only that student of that class; attendance rows are
      left as they are. A class id that is not a number fails the ownership
      query; a student id that is not a number fails the delete. */
  function DropStudent(st: Store, auth: Auth, classId: Option<ClassId>, studentId: Option<StudentId>): (h: Handled)
    ensures !auth.Verified? ==> h == Refuse(auth, st)
    ensures auth.Verified? ==> h.response.status in {200, 404, 500}
    ensures auth.Verified? ==>
              (h.response.status == 404 <==> classId.Some? && !Owns(st.classes, classId.value, auth.userId))
    ensures auth.Verified? ==>
              (h.response.status == 500 <==>
                 classId.None? || (Owns(st.classes, classId.value, auth.userId) && studentId.None?))
    ensures h.response.status != 200 ==> h.store == st
    ensures h.response.status == 200 ==>
              && auth.Verified? && classId.Some? && studentId.Some?
              && Owns(st.classes, classId.value, auth.userId)
              && h.store == st.(students := Filter(st.students, KeepStudent(classId.value, studentId.value)))
              && h.store.attendance == st.attendance
              && (forall s :: s in h.store.students <==>
                    s in st.students && !(s.id == studentId.value && s.classId == classId.value))
  {
    if !auth.Verified? then Refuse(auth, st)
    else if classId.None? then
      Handled(Response(500, Message("Database error while dropping student.")), st)
    else if !Owns(st.classes, classId.value, auth.userId) then
      Handled(Response(404, Message("Class not found or unauthorized.")), st)
    else if studentId.None? then
      Handled(Response(500, Message("Database error while dropping student.")), st)
    else
      Handled(Response(200, Message("Student dropped successfully")),
              st.(students := Filter(st.students, KeepStudent(classId.value, studentId.value))))
  }

  // ---- Attendance ----

  /** The rows `DELETE FROM attendance WHERE classId = ? AND date = ? AND
      studentId IN (?)` keeps. */
  function KeepMark(classId: ClassId, date: Date, keys: set<StudentId>): AttendanceRow -> bool {
    (a: AttendanceRow) => !(a.classId == classId && a.date == date && a.studentId in keys)
  }

  /** The rows of the multi-row INSERT, one per entry of the submission. */
  function NewMarks(classId: ClassId, date: Date, records: seq<(StudentId, bool)>): (rows: seq<AttendanceRow>)
    ensures |rows| == |records|
    ensures forall i :: 0 <= i < |rows| ==> rows[i] == AttendanceRow(classId, records[i].0, date, records[i].1)
  {
    if |records| == 0 then []
    else [AttendanceRow(classId, records[0].0, date, records[0].1)] + NewMarks(classId, date, records[1..])
  }

  /** `WHERE (classId, studentId, date) = key`. */
  function MarkIs(classId: ClassId, studentId: StudentId, date: Date): AttendanceRow -> bool {
    (a: AttendanceRow) => MarkKey(a) == (classId, studentId, date)
  }

  /** The submission is present and names at least one student. */
  predicate HasRecords(records: Option<Records>) {
    records.Some? && |records.value| > 0
  }

  /** `POST /classes/:classId/attendance`. */
  function RecordAttendance(st: Store, auth: Auth, classId: Option<ClassId>,
                            date: Option<Date>, records: Option<Records>): (h: Handled)
    ensures !auth.Verified? ==> h == Refuse(auth, st)
    ensures auth.Verified? ==> h.response.status in {200, 400, 404, 500}
    ensures auth.Verified? ==> (h.response.status == 400 <==> !(Truthy(date) && HasRecords(records)))
    ensures auth.Verified? && Truthy(date) && HasRecords(records) ==>
              (h.response.status == 500 <==> classId.None?)
    ensures auth.Verified? && Truthy(date) && HasRecords(records) && classId.Some? ==>
              (h.response.status == 404 <==> !Owns(st.classes, classId.value, auth.userId))
    ensures h.response.status != 200 ==> h.store == st
    ensures h.response.status == 200 ==>
              && auth.Verified? && classId.Some? && Owns(st.classes, classId.value, auth.userId)
              && Truthy(date) && HasRecords(records)
              && var keep := KeepMark(classId.value, date.value, KeySet(records.value));
                 h.store == st.(attendance := Filter(st.attendance, keep) + NewMarks(classId.value, date.value, records.value))
  {
    if !auth.Verified? then Refuse(auth, st)
    else if !Truthy(date) || records.None? || |records.value| == 0 then
      Handled(Response(400, Message("Date and attendance records are required.")), st)
    else if classId.None? then
      Handled(Response(500, Message("Database error while recording attendance.")), st)
    else if !Owns(st.classes, classId.value, auth.userId) then
      Handled(Response(404, Message("Class not found or unauthorized.")), st)
    else
      var c, d, rs := classId.value, date.value, records.value;
      var kept := Filter(st.attendance, KeepMark(c, d, KeySet(rs)));
      Handled(Response(200, Message("Attendance recorded successfully")),
              st.(attendance := kept + NewMarks(c, d, rs)))
  }
}

=== FILE: server_props.dfy ===
/** What the handlers of `Server` guarantee across requests: every handler
    keeps the database's integrity, attendance submissions are per-student
    upserts, login matches the stored credentials, and the figures the
    handlers report agree with one another. */
module ServerProperties {
  import opened JsValues
  import opened Text
  import opened Ledger
  import opened Stats
  import opened Server

  // ---- Integrity is preserved ----

  lemma RegisterPreservesValid(st: Store, name: Option<string>, email: Option<string>,
                               password: Option<string>, displayName: Option<string>)
    requires Valid(st)
    ensures Valid(Register(st, name, email, password, displayName).store)
  {
    var h := Register(st, name, email, password, displayName);
    if h.response.status == 201 {
      var u := h.store.users[|st.users|];
      assert h.store.users == st.users + [u];
      assert forall i :: 0 <= i < |st.users| ==> st.users[i].email != u.email;
      AppendPairwise(st.users, [u], UserOrder);
    }
  }

  lemma ChangePasswordPreservesValid(st: Store, auth: Auth, current: Option<string>, replacement: Option<string>)
    requires Valid(st)
    ensures Valid(ChangePassword(st, auth, current, replacement).store)
  {
    var h := ChangePassword(st, auth, current, replacement);
    if h.response.status == 200 {
      PasswordSet(st, auth.userId, replacement.value);
    }
  }

  /** Rewriting one user's password keeps the integrity invariant. */
  lemma PasswordSet(st: Store, id: UserId, password: string)
    requires Valid(st)
    ensures Valid(st.(users := SetPassword(st.users, id, password)))
  {
    var us := SetPassword(st.users, id, password);
    assert forall i :: 0 <= i < |us| ==> us[i].id == st.users[i].id && us[i].email == st.users[i].email;
    assert Pairwise(us, UserOrder) by {
      forall i, j | 0 <= i < j < |us| ensures UserOrder(us[i], us[j]) {
        assert UserOrder(st.users[i], st.users[j]);
      }
    }
  }

  lemma CreateClassPreservesValid(st: Store, auth: Auth, name: Option<string>)
    requires Valid(st)
    ensures Valid(CreateClass(st, auth, name).store)
  {
    var h := CreateClass(st, auth, name);
    if h.response.status == 201 {
      var row := ClassRow(st.nextClassId, auth.userId, Trim(name.value));
      assert h.store == st.(classes := st.classes + [row], nextClassId := st.nextClassId + 1);
      ClassAppended(st, row);
    }
  }

  /** Appending a class with the next id keeps the integrity invariant. */
  lemma ClassAppended(st: Store, row: ClassRow)
    requires Valid(st) && row.id == st.nextClassId
    ensures Valid(st.(classes := st.classes + [row], nextClassId := st.nextClassId + 1))
  {
    AppendPairwise(st.classes, [row], ClassOrder);
  }

  lemma DeleteClassPreservesValid(st: Store, auth: Auth, classId: Option<ClassId>)
    requires Valid(st)
    ensures Valid(DeleteClass(st, auth, classId).store)
  {
    if auth.Verified? && classId.Some? {
      FilterPairwise(st.classes, KeepClass(classId.value, auth.userId), ClassOrder);
    }
  }

  lemma EnrollStudentPreservesValid(st: Store, auth: Auth, classId: Option<ClassId>,
                                    name: Option<string>, registrationNumber: Option<string>)
    requires Valid(st)
    ensures Valid(EnrollStudent(st, auth, classId, name, registrationNumber).store)
  {
    var h := EnrollStudent(st, auth, classId, name, registrationNumber);
    if h.response.status == 201 {
      var row := StudentRow(st.nextStudentId, classId.value, Trim(name.value), Trim(registrationNumber.value));
      assert h.store == st.(students := st.students + [row], nextStudentId := st.nextStudentId + 1);
      assert row.classId < st.nextClassId by {
        var i :| 0 <= i < |st.classes| && st.classes[i].id == classId.value && st.classes[i].userId == auth.userId;
      }
      StudentAppended(st, row);
    }
  }

  /** Appending a student with the next id, in an issued class, keeps the
      integrity invariant. */
  lemma StudentAppended(st: Store, row: StudentRow)
    requires Valid(st) && row.id == st.nextStudentId && row.classId < st.nextClassId
    ensures Valid(st.(students := st.students + [row], nextStudentId := st.nextStudentId + 1))
  {
    AppendPairwise(st.students, [row], StudentOrder);
  }

  lemma DropStudentPreservesValid(st: Store, auth: Auth, classId: Option<ClassId>, studentId: Option<StudentId>)
    requires Valid(st)
    ensures Valid(DropStudent(st, auth, classId, studentId).store)
  {
    if auth.Verified? && classId.Some? && studentId.Some? {
      FilterPairwise(st.students, KeepStudent(classId.value, studentId.value), StudentOrder);
    }
  }

  /** The marks of a submission are pairwise distinct: one per student. */
  lemma NewMarksDistinct(c: ClassId, d: Date, rs: Records)
    ensures Pairwise(NewMarks(c, d, rs), DistinctMarks)
  {
    var rows := NewMarks(c, d, rs);
    forall i, j | 0 <= i < j < |rows| ensures DistinctMarks(rows[i], rows[j]) {
      assert rs[i].0 != rs[j].0;
    }
  }

  lemma RecordAttendancePreservesValid(st: Store, auth: Auth, classId: Option<ClassId>,
                                       date: Option<Date>, records: Option<Records>)
    requires Valid(st)
    ensures Valid(RecordAttendance(st, auth, classId, date, records).store)
  {
    var h := RecordAttendance(st, auth, classId, date, records);
    if h.response.status == 200 {
      var c, d, rs := classId.value, date.value, records.value;
      var keep := KeepMark(c, d, KeySet(rs));
      var kept := Filter(st.attendance, keep);
      var rows := NewMarks(c, d, rs);
      FilterPairwise(st.attendance, keep, DistinctMarks);
      NewMarksDistinct(c, d, rs);
      forall i, j | 0 <= i < |kept| && 0 <= j < |rows| ensures DistinctMarks(kept[i], rows[j]) {
        assert keep(kept[i]);
        assert rs[j].0 in KeySet(rs);
      }
      AppendPairwise(kept, rows, DistinctMarks);
      var k :| 0 <= k < |st.classes| && st.classes[k].id == c && st.classes[k].userId == auth.userId;
      assert c < st.nextClassId;
      assert h.store.attendance == kept + rows;
    }
  }

  // ---- Attendance submissions are per-student upserts ----

  /** Among the marks of a submission, the one for student `k`. */
  lemma {:induction false} NewMarksOfStudent(c: ClassId, d: Date, rs: Records, k: StudentId)
    requires k in KeySet(rs)
    ensures Filter(NewMarks(c, d, rs), MarkIs(c, k, d)) == [AttendanceRow(c, k, d, Lookup(rs, k).value)]
  {
    var rows := NewMarks(c, d, rs);
    assert rows[1..] == NewMarks(c, d, rs[1..]);
    assert DistinctKeys(rs[1..]);
    if rs[0].0 == k {
      assert forall i :: 0 <= i < |rs[1..]| ==> rs[1..][i].0 != k by {
        assert forall i :: 1 <= i < |rs| ==> rs[i].0 != rs[0].0;
      }
      FilterNone(rows[1..], MarkIs(c, k, d));
    } else {
      NewMarksOfStudent(c, d, rs[1..], k);
    }
  }

  /** After a successful submission each submitted student has exactly one
      mark for that class and date, holding the submitted value. */
  lemma RecordAttendanceUpserts(st: Store, auth: Auth, classId: Option<ClassId>,
                                date: Option<Date>, records: Option<Records>, k: StudentId)
    requires RecordAttendance(st, auth, classId, date, records).response.status == 200
    requires k in KeySet(records.value)
    ensures Filter(RecordAttendance(st, auth, classId, date, records).store.attendance,
                   MarkIs(classId.value, k, date.value))
         == [AttendanceRow(classId.value, k, date.value, Lookup(records.value, k).value)]
  {
    var c, d, rs := classId.value, date.value, records.value;
    var keep := KeepMark(c, d, KeySet(rs));
    var kept := Filter(st.attendance, keep);
    FilterAppend(kept, NewMarks(c, d, rs), MarkIs(c, k, d));
    forall i | 0 <= i < |kept| ensures !MarkIs(c, k, d)(kept[i]) {
      assert keep(kept[i]);
    }
    FilterNone(kept, MarkIs(c, k, d));
    NewMarksOfStudent(c, d, rs, k);
  }

  /** The rows the submission does not address (another class, another date
      or a student not in the submission) are exactly the rows before. */
  lemma RecordAttendanceFrames(st: Store, auth: Auth, classId: Option<ClassId>,
                               date: Option<Date>, records: Option<Records>)
    requires RecordAttendance(st, auth, classId, date, records).response.status == 200
    ensures var keep := KeepMark(classId.value, date.value, KeySet(records.value));
            Filter(RecordAttendance(st, auth, classId, date, records).store.attendance, keep)
              == Filter(st.attendance, keep)
  {
    var c, d, rs := classId.value, date.value, records.value;
    var keep := KeepMark(c, d, KeySet(rs));
    var kept := Filter(st.attendance, keep);
    var rows := NewMarks(c, d, rs);
    FilterAppend(kept, rows, keep);
    forall i | 0 <= i < |rows| ensures !keep(rows[i]) {
      assert rs[i].0 in KeySet(rs);
    }
    FilterNone(rows, keep);
    FilterAll(kept, keep);
  }

  // ---- Login ----

  /** With e-mails stored unique, a login succeeds exactly when some stored
      user has the lower-cased e-mail and the supplied password. */
  lemma LoginSucceedsIff(st: Store, email: Option<string>, password: Option<string>)
    requires Valid(st)
    requires Truthy(email) && Truthy(password)
    ensures Login(st, email, password).response.status == 200 <==>
              exists i :: 0 <= i < |st.users| && st.users[i].email == ToLower(email.value)
                                              && st.users[i].password == password.value
  {
    var e := ToLower(email.value);
    if i :| 0 <= i < |st.users| && st.users[i].email == e && st.users[i].password == password.value {
      UniqueEmailFound(st.users, e, i);
    }
  }

  /** With e-mails unique, looking a user up by e-mail finds the only user
      holding it. */
  lemma {:induction false} UniqueEmailFound(users: seq<User>, e: string, i: int)
    requires Pairwise(users, UserOrder)
    requires 0 <= i < |users| && users[i].email == e
    ensures UserByEmail(users, e) == Some(users[i])
  {
    if i > 0 {
      assert UserOrder(users[0], users[i]);
      assert Pairwise(users[1..], UserOrder);
      assert users[1..][i - 1] == users[i];
      UniqueEmailFound(users[1..], e, i - 1);
    }
  }

  // ---- Figures agree across handlers ----

  /** The counts `POST /classes` returns for a new class (0 students, rate 0)
      are the ones `GET /data` reports for it straight afterwards. */
  lemma CreatedClassFiguresAgree(st: Store, auth: Auth, name: Option<string>)
    requires Valid(st)
    requires CreateClass(st, auth, name).response.status == 201
    ensures var h := CreateClass(st, auth, name);
            var row := h.store.classes[|st.classes|];
            Summarise(row, h.store.students, h.store.attendance) == h.response.body.newClass
  {
    var h := CreateClass(st, auth, name);
    var row := h.store.classes[|st.classes|];
    FilterNone(h.store.students, StudentInClass(row.id));
    FilterNone(h.store.attendance, MarkInClass(row.id));
  }

  /** Dropping a student does not cascade: a mark recorded for the student
      stays in the attendance table after the student row is gone. */
  lemma DroppedStudentMarksRemain(st: Store, auth: Auth, c: ClassId, s: StudentId, m: AttendanceRow)
    requires DropStudent(st, auth, Some(c), Some(s)).response.status == 200
    requires m in st.attendance && m.classId == c && m.studentId == s
    ensures var after := DropStudent(st, auth, Some(c), Some(s)).store;
            && m in after.attendance
            && forall t :: t in after.students ==> !(t.id == s && t.classId == c)
  {
  }

  // ---- Finding: enrolment checks fields before trimming ----

  /** As written, a name of spaces only passes the presence check, and the
      student is stored with the empty string as its name. */
  lemma EnrollAcceptsBlankName(st: Store, userId: UserId, classId: ClassId, name: string, number: string)
    requires Owns(st.classes, classId, userId)
    requires name != "" && AllWhitespace(name) && number != ""
    ensures var h := EnrollStudent(st, Verified(userId), Some(classId), Some(name), Some(number));
            && h.response.status == 201
            && |h.store.students| == |st.students| + 1
            && h.store.students[|st.students|].name == ""
  {
  }

  /** With the check after trimming, the same request is refused and nothing
      is stored. */
  lemma CheckedEnrollRefusesBlankName(st: Store, userId: UserId, classId: ClassId, name: string, number: string)
    requires Owns(st.classes, classId, userId)
    requires name != "" && AllWhitespace(name) && number != ""
    ensures var h := EnrollStudentChecked(st, Verified(userId), Some(classId), Some(name), Some(number));
            && h.response.status == 400
            && h.store == st
  {
  }
}

=== FILE: stats.dfy ===
/** The per-class statistics of `GET /data`: the number of enrolled students
    and the attendance rate, computed the way the SQL query computes them (a
    LEFT JOIN of the class with its students and with its attendance marks,
    grouped by class) and proved equal to their plain definitions. */
module Stats {
  import opened JsValues
  import opened Ledger

  // ---- Reference definitions ----

  /** The students enrolled in a class. */
  function StudentsOf(students: seq<StudentRow>, c: ClassId): seq<StudentRow> {
    Filter(students, StudentInClass(c))
  }

  /** The attendance marks recorded for a class. */
  function MarksOf(attendance: seq<AttendanceRow>, c: ClassId): seq<AttendanceRow> {
    Filter(attendance, MarkInClass(c))
  }

  /** The distinct ids among some student rows. */
  function StudentIds(students: seq<StudentRow>): (ids: set<StudentId>)
    ensures forall i :: 0 <= i < |students| ==> students[i].id in ids
    ensures forall id :: id in ids ==> exists i :: 0 <= i < |students| && students[i].id == id
    ensures |ids| <= |students|
  {
    if |students| == 0 then {} else {students[0].id} + StudentIds(students[1..])
  }

  /** The number of marks that say "present". */
  function PresentCount(marks: seq<AttendanceRow>): (n: nat)
    ensures n <= |marks|
    ensures n == |marks| <==> forall i :: 0 <= i < |marks| ==> marks[i].present
    ensures n == 0 <==> forall i :: 0 <= i < |marks| ==> !marks[i].present
  {
    if |marks| == 0 then 0
    else (if marks[0].present then 1 else 0) + PresentCount(marks[1..])
  }

  /** The attendance rate in percent, unrounded: 100 * present / total, and 0
      when nothing has been recorded. */
  function Rate(marks: seq<AttendanceRow>): (r: real)
    ensures 0.0 <= r <= 100.0
    ensures |marks| == 0 ==> r == 0.0
    ensures r == 100.0 <==> |marks| > 0 && PresentCount(marks) == |marks|
  {
    Percent(PresentCount(marks), |marks|)
  }

  /** `part` out of `whole` in percent; 0 when `whole` is 0. */
  function Percent(part: nat, whole: nat): (r: real)
    requires part <= whole
    ensures 0.0 <= r <= 100.0
    ensures r == 100.0 <==> whole > 0 && part == whole
  {
    if whole == 0 then 0.0 else 100.0 * (part as real) / (whole as real)
  }

  // ---- The SQL query as written ----

  /** One row of `classes c LEFT JOIN students s LEFT JOIN attendance a`,
      restricted to one class: `s.id` and `a.present`, each NULL when the
      class has no row on that side. */
  datatype JoinedRow = JoinedRow(studentId: Option<StudentId>, present: Option<bool>)

  /** The student side of the LEFT JOIN: one NULL when nobody is enrolled. */
  function StudentSide(students: seq<StudentRow>): (xs: seq<Option<StudentId>>)
    ensures |xs| >= 1
  {
    if |students| == 0 then [None]
    else seq(|students|, i requires 0 <= i < |students| => Some(students[i].id))
  }

  /** The attendance side of the LEFT JOIN: one NULL when nothing is recorded. */
  function AttendanceSide(marks: seq<AttendanceRow>): (ys: seq<Option<bool>>)
    ensures |ys| >= 1
  {
    if |marks| == 0 then [None]
    else seq(|marks|, i requires 0 <= i < |marks| => Some(marks[i].present))
  }

  /** The joined rows contributed by one student-side value. */
  function Pair(x: Option<StudentId>, ys: seq<Option<bool>>): (rows: seq<JoinedRow>)
    ensures |rows| == |ys|
  {
    if |ys| == 0 then [] else [JoinedRow(x, ys[0])] + Pair(x, ys[1..])
  }

  /** Every student-side value paired with every attendance-side value. */
  function Cross(xs: seq<Option<StudentId>>, ys: seq<Option<bool>>): seq<JoinedRow> {
    if |xs| == 0 then [] else Pair(xs[0], ys) + Cross(xs[1..], ys)
  }

  /** The group of joined rows that `GROUP BY c.id` forms for class `c`. */
  function ClassJoin(c: ClassId, students: seq<StudentRow>, attendance: seq<AttendanceRow>): seq<JoinedRow> {
    Cross(StudentSide(StudentsOf(students, c)), AttendanceSide(MarksOf(attendance, c)))
  }

  /** The non-NULL `s.id` values of a group; `COUNT(DISTINCT s.id)` is its size. */
  function JoinedStudentIds(rows: seq<JoinedRow>): set<StudentId> {
    if |rows| == 0 then {}
    else (if rows[0].studentId.Some? then {rows[0].studentId.value} else {}) + JoinedStudentIds(rows[1..])
  }

  /** The number of non-NULL `a.present` values of a group. */
  function NonNullPresent(rows: seq<JoinedRow>): nat {
    if |rows| == 0 then 0
    else (if rows[0].present.Some? then 1 else 0) + NonNullPresent(rows[1..])
  }

  /** `SUM(a.present)`, present being stored as 1 and absent as 0. */
  function SumPresent(rows: seq<JoinedRow>): nat {
    if |rows| == 0 then 0
    else (if rows[0].present == Some(true) then 1 else 0) + SumPresent(rows[1..])
  }

  /** `IFNULL(AVG(a.present) * 100, 0)`: AVG ignores NULLs and is NULL when
      every value is NULL. */
  function SqlRate(rows: seq<JoinedRow>): real {
    var n := NonNullPresent(rows);
    if n == 0 then 0.0 else (SumPresent(rows) as real) / (n as real) * 100.0
  }

  /** The figures `/data` reports for one class. */
  datatype ClassSummary = ClassSummary(id: ClassId, userId: UserId, name: string, students: nat, attendanceRate: real)

  /** One row of the `/data` class query. Its student count is the number of
      distinct students enrolled, and its rate is the attendance rate of the
      class's own marks, however many students multiply the joined rows. */
  function Summarise(c: ClassRow, students: seq<StudentRow>, attendance: seq<AttendanceRow>): (s: ClassSummary)
    ensures s.id == c.id && s.userId == c.userId && s.name == c.name
    ensures s.students == |StudentIds(StudentsOf(students, c.id))|
    ensures s.attendanceRate == Rate(MarksOf(attendance, c.id))
    ensures 0.0 <= s.attendanceRate <= 100.0
  {
    var rows := ClassJoin(c.id, students, attendance);
    JoinPreservesStudents(StudentsOf(students, c.id), AttendanceSide(MarksOf(attendance, c.id)));
    JoinPreservesRate(StudentSide(StudentsOf(students, c.id)), MarksOf(attendance, c.id));
    ClassSummary(c.id, c.userId, c.name, |JoinedStudentIds(rows)|, SqlRate(rows))
  }

  // ---- Why the join does not distort the figures ----

  lemma {:induction false} CountsOfAppend(a: seq<JoinedRow>, b: seq<JoinedRow>)
    ensures NonNullPresent(a + b) == NonNullPresent(a) + NonNullPresent(b)
    ensures SumPresent(a + b) == SumPresent(a) + SumPresent(b)
    ensures JoinedStudentIds(a + b) == JoinedStudentIds(a) + JoinedStudentIds(b)
  {
    if |a| == 0 {
      assert a + b == b;
    } else {
      assert (a + b)[1..] == a[1..] + b;
      CountsOfAppend(a[1..], b);
    }
  }

  /** The number of non-NULL values on the attendance side. */
  function Known(ys: seq<Option<bool>>): nat {
    if |ys| == 0 then 0 else (if ys[0].Some? then 1 else 0) + Known(ys[1..])
  }

  /** The number of present values on the attendance side. */
  function Trues(ys: seq<Option<bool>>): nat {
    if |ys| == 0 then 0 else (if ys[0] == Some(true) then 1 else 0) + Trues(ys[1..])
  }

  lemma {:induction false} PairCounts(x: Option<StudentId>, ys: seq<Option<bool>>)
    ensures NonNullPresent(Pair(x, ys)) == Known(ys)
    ensures SumPresent(Pair(x, ys)) == Trues(ys)
    ensures JoinedStudentIds(Pair(x, ys)) == if x.Some? && |ys| > 0 then {x.value} else {}
  {
    if |ys| > 0 {
      PairCounts(x, ys[1..]);
      CountsOfAppend([JoinedRow(x, ys[0])], Pair(x, ys[1..]));
    }
  }

  lemma MulSucc(k: nat, a: nat)
    ensures (k + 1) * a == a + k * a
  {
  }

  /** Each attendance-side value occurs once per student-side value. */
  lemma {:induction false} CrossCounts(xs: seq<Option<StudentId>>, ys: seq<Option<bool>>)
    ensures NonNullPresent(Cross(xs, ys)) == |xs| * Known(ys)
    ensures SumPresent(Cross(xs, ys)) == |xs| * Trues(ys)
  {
    if |xs| > 0 {
      CrossCounts(xs[1..], ys);
      PairCounts(xs[0], ys);
      CountsOfAppend(Pair(xs[0], ys), Cross(xs[1..], ys));
      MulSucc(|xs| - 1, Known(ys));
      MulSucc(|xs| - 1, Trues(ys));
    }
  }

  /** The distinct non-NULL student ids of the student side. */
  function SideIds(xs: seq<Option<StudentId>>): set<StudentId> {
    if |xs| == 0 then {} else (if xs[0].Some? then {xs[0].value} else {}) + SideIds(xs[1..])
  }

  lemma {:induction false} CrossIds(xs: seq<Option<StudentId>>, ys: seq<Option<bool>>)
    requires |ys| >= 1
    ensures JoinedStudentIds(Cross(xs, ys)) == SideIds(xs)
  {
    if |xs| > 0 {
      CrossIds(xs[1..], ys);
      PairCounts(xs[0], ys);
      CountsOfAppend(Pair(xs[0], ys), Cross(xs[1..], ys));
    }
  }

  lemma {:induction false} SideIdsOfStudents(students: seq<StudentRow>)
    requires |students| > 0
    ensures SideIds(StudentSide(students)) == StudentIds(students)
  {
    var xs := StudentSide(students);
    if |students| > 1 {
      SideIdsOfStudents(students[1..]);
      assert xs[1..] == StudentSide(students[1..]);
    }
  }

  /** `COUNT(DISTINCT s.id)` over the joined group is the number of distinct
      students enrolled in the class, whatever the attendance side holds. */
  lemma JoinPreservesStudents(students: seq<StudentRow>, ys: seq<Option<bool>>)
    requires |ys| >= 1
    ensures JoinedStudentIds(Cross(StudentSide(students), ys)) == StudentIds(students)
  {
    CrossIds(StudentSide(students), ys);
    if |students| > 0 {
      SideIdsOfStudents(students);
    }
  }

  lemma {:induction false} AttendanceSideCounts(marks: seq<AttendanceRow>)
    requires |marks| > 0
    ensures Known(AttendanceSide(marks)) == |marks|
    ensures Trues(AttendanceSide(marks)) == PresentCount(marks)
  {
    if |marks| > 1 {
      AttendanceSideCounts(marks[1..]);
      assert AttendanceSide(marks)[1..] == AttendanceSide(marks[1..]);
    }
  }

  /** Scaling numerator and denominator alike leaves a ratio unchanged. */
  lemma RatioOfCounts(n: nat, sum: nat, k: nat, p: nat, t: nat)
    requires k > 0 && t > 0 && n == k * t && sum == k * p
    ensures n > 0
    requires p <= t
    ensures (sum as real) / (n as real) * 100.0 == Percent(p, t)
  {
    MulSucc(k - 1, t);
    ScaledRatio(k, p, t);
  }

  lemma ScaledRatio(k: nat, p: nat, t: nat)
    requires k > 0 && t > 0
    ensures ((k * p) as real) / ((k * t) as real) * 100.0 == 100.0 * (p as real) / (t as real)
  {
    var kr, pr, tr := k as real, p as real, t as real;
    assert (k * p) as real == kr * pr;
    assert (k * t) as real == kr * tr;
    assert (kr * pr) / (kr * tr) == pr / tr;
  }

  /** The joined rows repeat each attendance mark once per enrolled student
      (at least once), so the average over them is the class's own rate. */
  lemma JoinPreservesRate(xs: seq<Option<StudentId>>, marks: seq<AttendanceRow>)
    requires |xs| >= 1
    ensures SqlRate(Cross(xs, AttendanceSide(marks))) == Rate(marks)
  {
    var ys := AttendanceSide(marks);
    var rows := Cross(xs, ys);
    CrossCounts(xs, ys);
    if |marks| == 0 {
      assert Known(ys) == 0 by { assert ys == [None]; }
      assert NonNullPresent(rows) == 0;
    } else {
      AttendanceSideCounts(marks);
      var k, p, t := |xs|, PresentCount(marks), |marks|;
      var n, sum := NonNullPresent(rows), SumPresent(rows);
      assert n == k * t && sum == k * p;
      RatioOfCounts(n, sum, k, p, t);
    }
  }
}

=== FILE: take_attendance.dfy ===
/** The attendance sheet of one class (`TakeAttendanceScreen`): the map of
    who is present, its toggle, and what submitting does. */
module TakeAttendanceScreen {
  import opened JsValues
  import opened Ledger
  import opened AppContext

  /** `students[classId] || []`. */
  function ClassStudents(students: Dict<ClassId, seq<StudentRow>>, classId: ClassId): seq<StudentRow> {
    Lookup(students, classId).GetOr([])
  }

  /** Some student of the roster has id `k`. */
  predicate OnRoster(roster: seq<StudentRow>, k: StudentId) {
    exists i :: 0 <= i < |roster| && roster[i].id == k
  }

  /** The effect on `[classId, students]`: every student of the class starts
      out present, and nobody else has an entry. */
  function InitialAttendance(roster: seq<StudentRow>): (m: Dict<StudentId, bool>)
    ensures forall k :: k in KeySet(m) <==> OnRoster(roster, k)
    ensures forall k :: k in KeySet(m) ==> Lookup(m, k) == Some(true)
  {
    if |roster| == 0 then []
    else
      var front := roster[..|roster| - 1];
      var last := roster[|roster| - 1];
      assert forall i :: 0 <= i < |front| ==> front[i] == roster[i];
      assert forall k :: OnRoster(roster, k) <==> OnRoster(front, k) || k == last.id by {
        forall k | OnRoster(roster, k) ensures OnRoster(front, k) || k == last.id {
          var i :| 0 <= i < |roster| && roster[i].id == k;
          if i < |front| {
            assert front[i].id == k;
          }
        }
      }
      Put(InitialAttendance(front), last.id, true)
  }

  /** How a student's row shows: `!!currentAttendance[id]`, so a student
      without an entry shows as absent. */
  predicate ShownPresent(m: Dict<StudentId, bool>, id: StudentId) {
    Lookup(m, id) == Some(true)
  }

  /** `toggleAttendance(id)`: the student's entry becomes the opposite of how
      it shows (a missing entry becomes present); nothing else changes. */
  function Toggle(m: Dict<StudentId, bool>, id: StudentId): (r: Dict<StudentId, bool>)
    ensures ShownPresent(r, id) <==> !ShownPresent(m, id)
    ensures id !in KeySet(m) ==> Lookup(r, id) == Some(true)
    ensures KeySet(r) == KeySet(m) + {id}
    ensures forall j :: j != id ==> Lookup(r, j) == Lookup(m, j)
  {
    Put(m, id, !ShownPresent(m, id))
  }

  /** Toggling a student who has an entry twice restores the map. */
  lemma ToggleTwice(m: Dict<StudentId, bool>, id: StudentId)
    requires id in KeySet(m)
    ensures Toggle(Toggle(m, id), id) == m
  {
    var b := Lookup(m, id).value;
    assert Toggle(m, id) == Put(m, id, !b);
    PutPut(m, id, !b, b);
    PutSame(m, id, b);
  }

  /** On a fresh sheet every student of the class shows as present, and one
      toggle marks exactly that student absent. */
  lemma ToggleOnFreshSheet(roster: seq<StudentRow>, id: StudentId, other: StudentId)
    requires OnRoster(roster, id) && OnRoster(roster, other) && other != id
    ensures !ShownPresent(Toggle(InitialAttendance(roster), id), id)
    ensures ShownPresent(Toggle(InitialAttendance(roster), id), other)
  {
  }

  /** What `handleSubmit` does, in order. */
  datatype Effect = Alert(title: string) | SetLoading(on: bool) | CallTakeAttendance(classId: ClassId, date: Date) | GoBack

  /** The value of `loading` after the effects, starting from `initial`. */
  function LoadingAfter(initial: bool, effects: seq<Effect>): bool {
    if |effects| == 0 then initial
    else if effects[|effects| - 1].SetLoading? then effects[|effects| - 1].on
    else LoadingAfter(initial, effects[..|effects| - 1])
  }

  predicate Calls(effects: seq<Effect>) {
    exists i :: 0 <= i < |effects| && effects[i].CallTakeAttendance?
  }

  /** `handleSubmit`, given how `takeAttendance` settles: an empty class is
      refused with an alert; otherwise `loading` is on while the call runs
      and off again however it settles, and the screen goes back only on
      success. */
  function Submit(roster: seq<StudentRow>, classId: ClassId, date: Date, loading: bool, outcome: Outcome)
    : (effects: seq<Effect>)
    ensures Calls(effects) <==> |roster| > 0
    ensures forall i :: 0 <= i < |effects| && effects[i].CallTakeAttendance? ==>
              effects[i] == CallTakeAttendance(classId, date) && LoadingAfter(loading, effects[..i])
    ensures LoadingAfter(loading, effects) == (loading && |roster| == 0)
    ensures GoBack in effects <==> |roster| > 0 && outcome == Returned(true)
    ensures |roster| == 0 ==> effects == [Alert("Error")]
  {
    if |roster| == 0 then [Alert("Error")]
    else
      var settled := match outcome
        case Returned(true) => [Alert("Success"), GoBack]
        case Returned(false) => [Alert("Submission Failed")]
        case Threw => [Alert("Error")];
      var effects := [SetLoading(true), CallTakeAttendance(classId, date)] + settled + [SetLoading(false)];
      assert effects[..1] == [SetLoading(true)];
      assert forall i :: 2 <= i < |effects| ==> !effects[i].CallTakeAttendance?;
      assert effects[1].CallTakeAttendance?;
      effects
  }
}

=== FILE: text.dfy ===
/** The string primitives the source relies on: `String.prototype.trim`,
    `toLowerCase` and `length`. */
module Text {

  /** The characters `trim` removes: the ECMAScript WhiteSpace and
      LineTerminator code points. */
  predicate IsWhitespace(c: char) {
    || c == '\t' || c == '\n' || c == '\U{000B}' || c == '\U{000C}' || c == '\r'
    || c == ' ' || c == '\U{00A0}' || c == '\U{1680}'
    || ('\U{2000}' <= c <= '\U{200A}')
    || c == '\U{2028}' || c == '\U{2029}' || c == '\U{202F}' || c == '\U{205F}'
    || c == '\U{3000}' || c == '\U{FEFF}'
  }

  predicate AllWhitespace(s: string) {
    forall i :: 0 <= i < |s| ==> IsWhitespace(s[i])
  }

  /** Neither end of the string is whitespace. */
  predicate Trimmed(s: string) {
    s == [] || (!IsWhitespace(s[0]) && !IsWhitespace(s[|s| - 1]))
  }

  /** Removes the leading whitespace: the result is the longest suffix that
      does not start with whitespace. */
  function TrimStart(s: string): (r: string)
    ensures |r| <= |s| && r == s[|s| - |r|..]
    ensures forall i :: 0 <= i < |s| - |r| ==> IsWhitespace(s[i])
    ensures r != [] ==> !IsWhitespace(r[0])
  {
    if |s| > 0 && IsWhitespace(s[0]) then
      var r := TrimStart(s[1..]);
      assert s[1..][|s| - 1 - |r|..] == s[|s| - |r|..];
      assert forall i :: 1 <= i < |s| ==> s[i] == s[1..][i - 1];
      r
    else s
  }

  /** Removes the trailing whitespace: the result is the longest prefix that
      does not end with whitespace. */
  function TrimEnd(s: string): (r: string)
    ensures |r| <= |s| && r == s[..|r|]
    ensures forall i :: |r| <= i < |s| ==> IsWhitespace(s[i])
    ensures r != [] ==> !IsWhitespace(r[|r| - 1])
  {
    if |s| > 0 && IsWhitespace(s[|s| - 1]) then
      var r := TrimEnd(s[..|s| - 1]);
      assert s[..|s| - 1][..|r|] == s[..|r|];
      assert forall i :: 0 <= i < |s| - 1 ==> s[i] == s[..|s| - 1][i];
      r
    else s
  }

  /** `s.trim()`: `s` with whitespace removed from both ends. */
  function Trim(s: string): (r: string)
    ensures Trimmed(r)
    ensures |r| <= |s|
    ensures r == [] <==> AllWhitespace(s)
    ensures exists i, j :: 0 <= i <= j <= |s| && r == s[i..j] && AllWhitespace(s[..i]) && AllWhitespace(s[j..])
  {
    TrimEndOfStart(s);
    TrimDropsBlankEnds(s);
    TrimEnd(TrimStart(s))
  }

  /** What `Trim` keeps is a contiguous part of `s`, and what it drops on
      either side is blank. */
  lemma TrimDropsBlankEnds(s: string)
    ensures var r := TrimEnd(TrimStart(s));
            exists i, j :: 0 <= i <= j <= |s| && r == s[i..j] && AllWhitespace(s[..i]) && AllWhitespace(s[j..])
  {
    var t := TrimStart(s);
    var r := TrimEnd(t);
    BetweenBlankEnds(s, t, r);
  }

  /** A prefix `r` of a suffix `t` of `s` is the part of `s` between two
      blank ends when everything outside `t` before it, and everything of
      `t` after `r`, is blank. */
  lemma BetweenBlankEnds(s: string, t: string, r: string)
    requires |t| <= |s| && t == s[|s| - |t|..]
    requires |r| <= |t| && r == t[..|r|]
    requires forall i :: 0 <= i < |s| - |t| ==> IsWhitespace(s[i])
    requires forall i :: |r| <= i < |t| ==> IsWhitespace(t[i])
    ensures exists i, j :: 0 <= i <= j <= |s| && r == s[i..j] && AllWhitespace(s[..i]) && AllWhitespace(s[j..])
  {
    var k := |s| - |t|;
    var j := k + |r|;
    assert r == s[k..j];
    var head, tail := s[..k], s[j..];
    assert forall m :: 0 <= m < |head| ==> head[m] == s[m];
    assert forall m :: 0 <= m < |tail| ==> tail[m] == t[|r| + m];
  }

  /** Why `Trim` meets its contract: what the first pass leaves starts with a
      non-blank character, and what either pass drops is blank. */
  lemma TrimEndOfStart(s: string)
    ensures var r := TrimEnd(TrimStart(s));
            && Trimmed(r) && |r| <= |s|
            && (r == [] <==> AllWhitespace(s))
  {
    var t := TrimStart(s);
    var r := TrimEnd(t);
    var k := |s| - |t|;
    if r == [] {
      assert |t| == 0;
    } else {
      assert r[0] == t[0] == s[k];
      assert !AllWhitespace(s) by {
        assert !IsWhitespace(s[k]);
      }
    }
  }

  /** Trimming is idempotent. */
  lemma TrimIdempotent(s: string)
    ensures Trim(Trim(s)) == Trim(s)
  {
    var r := Trim(s);
    assert TrimStart(r) == r;
    assert TrimEnd(r) == r;
  }

  /** `s.trim()` keeps the middle of the string: it is `s` itself when `s` has
      no whitespace at either end. */
  lemma TrimOfTrimmed(s: string)
    requires Trimmed(s)
    ensures Trim(s) == s
  {
    assert TrimStart(s) == s;
    assert TrimEnd(s) == s;
  }

  /** The lower-case form of one character: ASCII letters only. */
  function LowerChar(c: char): (l: char)
    ensures 'A' <= c <= 'Z' ==> l as int == c as int + 32
    ensures !('A' <= c <= 'Z') ==> l == c
    ensures !('A' <= l <= 'Z')
  {
    if 'A' <= c <= 'Z' then (c as int + 32) as char else c
  }

  /** `s.toLowerCase()` on the ASCII letters. */
  function ToLower(s: string): (r: string)
    ensures |r| == |s|
    ensures forall i :: 0 <= i < |s| ==> r[i] == LowerChar(s[i])
  {
    if |s| == 0 then [] else [LowerChar(s[0])] + ToLower(s[1..])
  }

  /** No ASCII capital letter occurs in the string. */
  predicate IsLower(s: string) {
    forall i :: 0 <= i < |s| ==> !('A' <= s[i] <= 'Z')
  }

  /** Lower-casing leaves no capital letter, and so it is idempotent. */
  lemma ToLowerIsLower(s: string)
    ensures IsLower(ToLower(s))
    ensures ToLower(ToLower(s)) == ToLower(s)
  {
  }

  /** A string without capitals is its own lower-case form. */
  lemma LowerFixpoint(s: string)
    requires IsLower(s)
    ensures ToLower(s) == s
  {
  }

  /** `s.length`: the number of UTF-16 code units, so a code point outside
      the Basic Multilingual Plane counts twice. */
  function Utf16Length(s: string): (n: nat)
    ensures |s| <= n <= 2 * |s|
    ensures (forall i :: 0 <= i < |s| ==> s[i] as int <= 0xFFFF) ==> n == |s|
  {
    if |s| == 0 then 0
    else (if s[0] as int > 0xFFFF then 2 else 1) + Utf16Length(s[1..])
  }
}
